=== FILE: README.md ===
# Recipe-video app: server functions and client logic, modelled in Dafny

This project models the logic core of a React Native recipe-video app and
its three Appwrite cloud functions.

- **`aicomposite`**: transcribes an optional audio clip, then answers a
  question about a video with a chat model.
- **`whispertranscribe`**: transcribes an audio clip.
- **`aichat`**: answers a question from a video description and a chat
  history.

On the client it models:

- the chat panel's `sendMessage`;
- the recorder's `stopRecording`;
- the filter modal's open, toggle, apply, cancel and clear actions;
- the like button's optimistic update and revert;
- the persisted zustand store;
- the root layout's authentication redirect and auth-change subscription;
- the route table.

Each handler is a pure function from a request and an environment to a
reply plus a **trace**. The environment supplies the API key, the temp
directory, the time stamp and the outcomes of the write, the speech
provider, the chat provider and the unlink. The trace is the ordered list
of file-system and provider effects.

A small automaton (`Effects.Step`) states the temporary-file discipline:

- a temporary path is named before it is written;
- the speech provider reads only a written file;
- every named path is unlinked before the handler returns.

Both transcription paths share one stage, `Transcription.Stage`, because
the two handlers run the same sequence of checks:

1. missing fields;
2. naming the temporary file;
3. size;
4. extension;
5. write;
6. speech call;
7. empty-transcript check;
8. unlink.

The client components are pure state transitions over immutable records.
Their server round trips are modelled by encoding the client's request
into the handler's `Request`, running the handler model, and decoding the
reply back. This connects the client's success conditions to the server's
decision table.

Module layout:

- `Base`: `Option`, `Field` (a JSON field that is missing, `null` or given), `Result`.
- `Js`: JavaScript string semantics:
  - truthiness and `||`;
  - `trim`;
  - ASCII `toLowerCase`;
  - `split` / `join` / `pop`;
  - `includes`.
- `History`: the `role: content` chat-history rendering.
- `AudioFormat`: the allow-list, the extension rule and the size limit.
- `Providers`, `Effects`, `Http`, `Invocation`: shared types, the effect
  automaton, replies and requests.
- `Transcription`, `Composite`, `Whisper`, `AiChat`: the server functions.
- `Store`, `Routes`, `AuthNavigation`, `FilterModal`, `LikeButton`,
  `ChatInterface`, `AudioRecorder`: the client.

Behaviour of note, as the code has it:

- In `aicomposite` a body that fails to parse is caught by the outer
  handler. It is reported with `errorType` `"unknown"` and status 500, not
  as a 400 validation error.
- Every `aicomposite` failure is reported with status 500, including
  validation failures.
- Inside `handleTranscription`, the size and format errors, thrown with
  type `validation_error`, are caught by the function's own `catch` and
  re-thrown as `transcription_error`.
- Both handlers attempt the unlink whenever a temporary path was assigned,
  even when nothing was written.
- In `whispertranscribe`, a missing API key is reported before `/ping` is
  answered.

## Model

| member | source | states |
|---|---|---|
| Js.TrimStart | functions/whispertranscribe/src/main.js:118 | the result is a suffix of the input; the dropped prefix is all white space; the result does not start with white space |
| Js.TrimEnd | functions/whispertranscribe/src/main.js:118 | the result is a prefix of the input; the dropped suffix is all white space; the result does not end with white space |
| Js.Trim | components/ChatInterface.tsx:39-43 | `trim()` is a contiguous piece of the input with only white space on either side of it; it is empty exactly when the input is all white space, and otherwise neither starts nor ends with white space |
| Js.LowerAscii | functions/aicomposite/src/main.js:47 | `toLowerCase` keeps the length and lower-cases each character at its index |
| Js.LowerAsciiFixed | functions/aicomposite/src/main.js:47 | a string without upper-case letters is unchanged by `toLowerCase` |
| Js.Split | functions/aicomposite/src/main.js:47 | `split` returns at least one piece and no piece contains the separator |
| Js.AfterLast | functions/aicomposite/src/main.js:47 | the text after the last separator: a separator-free suffix preceded by the separator or by the start of the string |
| Js.LastPieceIsAfterLast | functions/whispertranscribe/src/main.js:90 | `split(sep).pop()` equals the text after the last separator |
| Js.JoinSplit | functions/whispertranscribe/src/main.js:90 | joining the pieces of `split(sep)` with `sep` restores the input |
| Js.SplitJoin | functions/whispertranscribe/src/main.js:90 | splitting a join of separator-free pieces restores the pieces |
| Js.JoinSnoc | functions/aicomposite/src/main.js:134-136 | `join` of a list extended by one element adds the separator and that element |
| Js.JoinAppend | functions/aicomposite/src/main.js:134-136 | `join` distributes over concatenation of two non-empty lists with one separator between |
| Js.Includes | components/AudioRecorder.tsx:114-118 | a needle longer than the text is never found; the empty needle always is |
| Js.IncludesSuffix | components/AudioRecorder.tsx:114-118 | a string includes every suffix of itself |
| Js.IncludesIffOccurs | components/AudioRecorder.tsx:114-118 | `includes` holds exactly when the substring occurs at some index |
| Js.IncludesAfterPrefix | components/AudioRecorder.tsx:114-118 | a prefix that lacks the needle's first character cannot create or hide a match |
| History.Render | functions/aichat/src/main.js:46-48 | the rendering is empty exactly when the history is, and otherwise begins with the first entry's line |
| History.RenderField | functions/aichat/src/main.js:11-48 | a missing history renders as the empty string; a `null` one throws the runtime's `map` error; a given one renders as its lines |
| History.Lines | functions/aichat/src/main.js:46-47 | one `role: content` line per history entry, in order |
| History.RenderShort | functions/aichat/src/main.js:46-48 | an empty history renders as the empty string; one entry renders as its line |
| History.RenderExample | functions/aichat/src/main.js:46-48 | a two-turn history renders as `User: hi\nAI: hello` |
| History.RenderAppend | functions/aicomposite/src/main.js:134-136 | rendering two non-empty histories back to back puts one newline between their renderings |
| History.RenderRoundTrip | functions/aicomposite/src/main.js:134-136 | when no line contains a newline, splitting the rendering on newlines gives back the lines |
| AudioFormat.Extension | functions/aicomposite/src/main.js:47 | the extension is the lower-cased text after the last dot and contains no dot |
| AudioFormat.ExtensionOfDotted | functions/whispertranscribe/src/main.js:90 | `stem.ext` has extension `ext` lower-cased, whatever dots the stem holds |
| AudioFormat.ExtensionWithoutDot | functions/whispertranscribe/src/main.js:90 | a name without a dot is its own extension, lower-cased |
| AudioFormat.RecordingNameSupported | components/AudioRecorder.tsx:80 | the client's `recording.m4a` passes the server's format check |
| AudioFormat.UpperCaseSupported | functions/whispertranscribe/src/main.js:90-91 | the check is case-insensitive (`Voice.MP3` passes) |
| AudioFormat.DoubleExtensionSupported | functions/whispertranscribe/src/main.js:90-91 | only the last segment counts (`clip.tar.wav` passes) |
| AudioFormat.EarlierSegmentIgnored | functions/whispertranscribe/src/main.js:90-91 | a supported earlier segment does not help (`song.mp3.txt` fails) |
| AudioFormat.BareFormatNameSupported | functions/whispertranscribe/src/main.js:90-91 | a name with no dot that equals a format (`webm`) passes |
| AudioFormat.LimitBoundary | functions/aicomposite/src/main.js:42-44 | exactly 25 MiB of decoded audio is accepted and one byte more is rejected |
| AudioFormat.FormatsListing | functions/whispertranscribe/src/main.js:95 | the formats listing in the error text is `mp3, mp4, mpeg, mpga, m4a, wav, webm` |
| Effects.ReplayAppend | functions/whispertranscribe/src/main.js:150-160 | replaying two trace segments is replaying the first, then the second from where it left the file |
| Effects.ChatAfterDisciplined | functions/aicomposite/src/main.js:209-216 | a chat call after a completed temporary-file session keeps the trace disciplined |
| Effects.ReleaseNeedsUnlink | functions/whispertranscribe/src/main.js:150-160 | a held temporary file is released only by an unlink of that path |
| Effects.CleanupFollowsAssignment | functions/aicomposite/src/main.js:84-94 | in a disciplined trace every named temporary path is unlinked later |
| Transcription.Middle | functions/aicomposite/src/main.js:41-77 | the effects between naming and unlinking: none when a check fails, a failed write, or a write followed by the speech call; a write happens exactly when both checks pass |
| Transcription.SessionDisciplined | functions/aicomposite/src/main.js:37-94 | naming, any of the three middles and an unlink form a disciplined trace |
| Transcription.SessionEffects | functions/aicomposite/src/main.js:52-73 | in such a session a write happened exactly when the middle is non-empty; the speech call happened exactly when the write succeeded |
| Transcription.Stage | functions/aicomposite/src/main.js:28-95 | a missing field is reported before a path is named; once named, the trace starts with it and ends with its unlink; a write happens exactly when both checks pass; the speech call happens exactly when the write succeeds |
| Transcription.StageOutcomes | functions/whispertranscribe/src/main.js:66-125 | the stage's decision table: size before format before write before provider before empty-transcript, with the thrown message carried through |
| Transcription.StageIgnoresUnlink | functions/aicomposite/src/main.js:84-94 | whether the unlink succeeds does not change the stage's outcome |
| Composite.InnerError | functions/aicomposite/src/main.js:33-76 | the three pre-write checks throw `validation_error`, an empty transcript `transcription_error`, and a write or provider failure an untyped error keeping its message |
| Composite.HandleTranscription | functions/aicomposite/src/main.js:28-95 | succeeds exactly when the stage hears usable text and returns it; every failure is re-thrown as `transcription_error` with the inner message |
| Composite.PromptFor | functions/aicomposite/src/main.js:98-144 | a `null` history throws before the prompt is built; otherwise the prompt carries the description, the final question, the rendered history (empty when missing) and the context (`""` when missing, `null` passed on) |
| Composite.HandleAIChat | functions/aicomposite/src/main.js:98-151 | at most one effect, a chat call, made exactly when the history is not `null`; succeeds exactly when that call answers, with its answer; every failure is typed `ai_chat_error` |
| Composite.Fail | functions/aicomposite/src/main.js:225-239 | a caught error becomes status 500 with its message; its type is kept, and `unknown` is reported exactly when the error carried no type |
| Composite.Process | functions/aicomposite/src/main.js:169-223 | the trace is disciplined; every failure is 500 and never `network_error`; a success answers with the chat provider's answer and required a non-`null` history |
| Composite.Handle | functions/aicomposite/src/main.js:154-240 | `/ping` answers `Pong` with no effects; every failure is 500; the trace is disciplined; a success carries the chat answer and the source `audio_transcription` exactly when audio data was present, and required a non-`null` history |
| Composite.ParseFailureIsUnknown | functions/aicomposite/src/main.js:166 | an unparsable body is a 500 with type `unknown` and no effects |
| Composite.TranscriptionRunsIffAudio | functions/aicomposite/src/main.js:189-199 | a temporary file is named exactly when all three audio fields are truthy; the speech provider is called exactly when validation and the write succeed |
| Composite.TranscriptReplacesQuestion | functions/aicomposite/src/main.js:188-216 | when transcription succeeds, the chat stage follows it, and its prompt's question is the transcript, not the typed question |
| Composite.OversizeRejected | functions/aicomposite/src/main.js:42-44 | oversized audio fails as `transcription_error` "File too large (max 25MB)" with nothing written and no provider called |
| Composite.UnsupportedRejected | functions/aicomposite/src/main.js:47-50 | an unsupported extension fails as `transcription_error` with the allow-list message and nothing written |
| Composite.StageTraceFirst | functions/aicomposite/src/main.js:188-216 | the handler's trace begins with the transcription stage's trace |
| Composite.ExactLimitWritten | functions/aicomposite/src/main.js:42 | audio of exactly 25 MiB with a supported name is written |
| Composite.TranscriptionFailuresRewrapped | functions/aicomposite/src/main.js:81-83 | write, provider and empty-transcript failures all surface as `transcription_error` with their own messages |
| Composite.ValidationAfterTranscription | functions/aicomposite/src/main.js:188-207 | a missing description is detected only after the audio was transcribed; the chat provider is not called |
| Composite.MissingQuestionAndAudio | functions/aicomposite/src/main.js:202-207 | no question and no audio is a 500 `validation_error` with no effects |
| Composite.TextRequestAnswered | functions/aicomposite/src/main.js:98-223 | a text request with a `null` history fails as `ai_chat_error` with no call; otherwise it calls the chat provider once with the defaulted prompt and answers with source `text_input`, or fails as `ai_chat_error` |
| Composite.AudioSourceWithoutTranscription | functions/aicomposite/src/main.js:189-222 | audio data without a file name skips transcription, yet an answered reply's source is `audio_transcription` |
| Composite.CleanupOnEveryExit | functions/aicomposite/src/main.js:84-94 | every temporary path the handler names is unlinked later in its trace |
| Composite.UnlinkFailureSwallowed | functions/aicomposite/src/main.js:90-92 | a failing unlink does not change the reply |
| Composite.ProcessIgnoresUnlink | functions/aicomposite/src/main.js:84-94 | the same, for the handler after parsing |
| Whisper.TranscriptBody | functions/whispertranscribe/src/main.js:127-140 | the success body repeats the text as transcription, description and context, with model `whisper-1` |
| Whisper.Transcribe | functions/whispertranscribe/src/main.js:59-160 | the `/transcribe` branch succeeds exactly when the stage hears usable text and answers with that text |
| Whisper.Handle | functions/whispertranscribe/src/main.js:18-181 | no API key is a 500 configuration error before anything else; `/ping` answers `Pong`; every failure is 400 or 500; the trace is disciplined |
| Whisper.InvalidBodyRejected | functions/whispertranscribe/src/main.js:45-56 | an unparsable body is a 400 "Invalid request body" with no effects |
| Whisper.Descriptor | functions/whispertranscribe/src/main.js:163-171 | the descriptor reports `ready`, `POST /transcribe`, and the very format list and 25 MiB limit that the `/transcribe` branch enforces |
| Whisper.AdvertisedFormatAccepted | functions/whispertranscribe/src/main.js:17-171 | a file named with any advertised format as its extension passes the format check |
| Whisper.DescriptorOtherwise | functions/whispertranscribe/src/main.js:163-171 | a body whose path is not `/transcribe` gets the readiness descriptor with the formats and "25MB" |
| Whisper.MissingFieldsRejected | functions/whispertranscribe/src/main.js:66-73 | a missing audio field is a 400 with no effects |
| Whisper.SizeThenFormat | functions/whispertranscribe/src/main.js:80-98 | oversize is reported before an unsupported format, both as 400, and neither writes a file |
| Whisper.TranscribeRoute | functions/whispertranscribe/src/main.js:59 | a parsed body with path `/transcribe` is handled by the transcription branch |
| Whisper.TranscriptionFailures | functions/whispertranscribe/src/main.js:118-149 | a write or provider failure is a 500 carrying the thrown message; an empty transcript is a 400 "No speech detected or audio was unclear" |
| Whisper.TranscriptAnswered | functions/whispertranscribe/src/main.js:127-140 | usable text is answered with the transcript body, after a write and one speech call |
| Whisper.CleanupOnEveryExit | functions/whispertranscribe/src/main.js:150-160 | every temporary path the handler names is unlinked later in its trace |
| Whisper.UnlinkFailureSwallowed | functions/whispertranscribe/src/main.js:156-158 | a failing unlink does not change the reply |
| Whisper.TranscribeIgnoresUnlink | functions/whispertranscribe/src/main.js:150-160 | the same, for the transcription branch alone |
| AiChat.ParseBody | functions/aichat/src/main.js:10 | the body is always given to `JSON.parse`; an object body therefore fails to parse |
| AiChat.PromptFor | functions/aichat/src/main.js:11-55 | a `null` history throws the runtime's `map` error; otherwise the prompt carries the description, the question and the rendered history (empty when missing), with no additional context |
| AiChat.Handle | functions/aichat/src/main.js:7-70 | every failure is 500; the chat provider is called exactly when both fields are truthy and the history is not `null`; success carries the provider's answer |
| AiChat.MissingParameters | functions/aichat/src/main.js:13-15 | a missing description or question is a 500 with the "Missing required parameters" message and no call |
| AiChat.ParseFailure | functions/aichat/src/main.js:10 | a parse failure is a 500 with the parser's message |
| AiChat.ValidRequest | functions/aichat/src/main.js:11-68 | a valid body with a `null` history fails with the `map` error and no call; any other calls the provider once with the rendered or defaulted empty history and relays its answer or its error |
| Store.Initial | store/index.ts:59-93 | the initial state is empty, not loading, without error, not hydrated |
| Store.SetFilters | store/index.ts:73-76 | sets both filter lists and nothing else |
| Store.ClearFilters | store/index.ts:77-80 | empties both filter lists and nothing else |
| Store.SetVideos | store/index.ts:66 | replaces the video list and nothing else |
| Store.SetHydrated | store/index.ts:92 | sets the hydration flag and nothing else |
| Store.SetUser | store/index.ts:62 | sets the user and nothing else, and the new user reaches the persisted projection |
| Store.ClearIsEmptySetFilters | store/index.ts:73-80 | clearing equals setting empty filters, and clearing twice equals clearing once |
| Store.SetFiltersUnchanged | store/index.ts:73-76 | setting the current filters changes nothing |
| Store.Partialize | store/index.ts:97-103 | the saved record holds exactly the user, the videos, the current video and the two filter lists |
| Store.Merge | store/index.ts:94-103 | restoring a saved record overwrites exactly the persisted fields and keeps the transient ones |
| Store.Rehydrate | store/index.ts:104-108 | after rehydration the store is hydrated unless the storage read failed; saved fields win when found |
| Store.TransientNotPersisted | store/index.ts:97-103 | loading, error and hydration flags never reach storage |
| Store.SaveRestore | store/index.ts:94-108 | saving a state and rehydrating a fresh store restores it with the transient fields at their initial values and hydration on |
| Routes.Lookup | utils/routes.ts:18-30 | a path maps to the static route with that path, and to none when no route has it |
| Routes.IsValidRoute | utils/routes.ts:18-30 | a path is valid exactly when some static route has it |
| Routes.GetTypedRoute | utils/routes.ts:33-35 | returns its argument unchanged; every route of the modelled type is on the white-list |
| Routes.LookupPath | utils/routes.ts:18-30 | every static route is found by its own path |
| Routes.EightRoutes | utils/routes.ts:19-28 | the set of valid paths has eight members |
| Routes.RouteValuesValid | utils/routes.ts:5-15 | every constant in the route table is a valid route |
| Routes.GroupsNotInTable | utils/routes.ts:5-28 | the group paths `/(tabs)` and `/(auth)` are valid but absent from the route table |
| Routes.ScreensOutsideWhitelist | utils/routes.ts:18-30 | screens the app also has (`/sign-in`, `/bookmarkDetail`, `/profile/bookmarks`, `/(tabs)/two`) are not on the white-list |
| Routes.AuthGroupSegments | utils/routes.ts:19-28 | a static route's first segment is `(auth)` exactly for the auth group and its two screens |
| AuthNavigation.Redirect | app/_layout.tsx:46-56 | no redirect before segments, auth readiness and hydration; sign-in exactly when signed out outside the auth group; tabs root exactly when signed in inside it |
| AuthNavigation.RedirectTargetsValid | app/_layout.tsx:51-55 | every redirect target is a valid route |
| AuthNavigation.RedirectSettles | app/_layout.tsx:46-56 | after a redirect to the target's segments, the same user is not redirected again |
| AuthNavigation.OnEvent | app/_layout.tsx:35-44 | a hydration event sets the store's flag, keeps readiness, and re-registers the listener exactly when hydrated; an auth change is ignored without a listener and otherwise sets the user and auth readiness; nothing else in the store changes; both invariants below are kept |
| AuthNavigation.Mount | app/_layout.tsx:29-44 | at mount auth is not ready, and a listener is registered exactly when the store is already hydrated |
| AuthNavigation.RunConsistent | app/_layout.tsx:35-44 | any event sequence keeps a listener registered only while the store is hydrated, and, from a mount, exactly while it is hydrated |
| AuthNavigation.ReadyNeedsHydrationFirst | app/_layout.tsx:35-41 | for a handler mounted before rehydration, auth becomes ready only after a hydration event followed by an auth event |
| AuthNavigation.ReadyNeedsHydratedReport | app/_layout.tsx:35-44 | in either order of mount and rehydration, auth becomes ready only through an auth event that arrives while a listener is registered and the store is hydrated |
| AuthNavigation.MountedHydratedFirstReport | app/_layout.tsx:29-89 | a handler mounted over an already hydrated store becomes ready on the first auth event, with no hydration event |
| AuthNavigation.SubscribedThenReport | app/_layout.tsx:38-41 | auth readiness requires some auth-change event |
| AuthNavigation.NoRedirectAtMount | app/_layout.tsx:33-47 | right after mount no redirect is requested, whether or not the store is already hydrated |
| FilterModal.Without | components/FilterModal.tsx:36 | `filter(c => c !== v)` removes every `v` and keeps every other element |
| FilterModal.Toggle | components/FilterModal.tsx:33-39 | toggling flips membership, leaves the other elements alone and appends an absent value at the end |
| FilterModal.WithoutSnoc | components/FilterModal.tsx:36-37 | removing `v` from a list ending in `v` equals removing it from the list without it |
| FilterModal.WithoutNoDup | components/FilterModal.tsx:36 | filtering keeps a duplicate-free list duplicate-free |
| FilterModal.ToggleNoDup | components/FilterModal.tsx:33-47 | toggling keeps a duplicate-free selection duplicate-free |
| FilterModal.ToggleTwice | components/FilterModal.tsx:33-39 | toggling twice restores a duplicate-free selection when the value was absent or last |
| FilterModal.ToggleTwiceReorders | components/FilterModal.tsx:33-39 | toggling a present value twice moves it to the end |
| FilterModal.ToggleTwiceSameMembers | components/FilterModal.tsx:33-39 | toggling twice always restores the members |
| FilterModal.Open | components/FilterModal.tsx:26-31 | opening copies the store's selection into the draft and leaves the store alone |
| FilterModal.ToggleCuisine | components/FilterModal.tsx:33-39 | flips one cuisine in the draft only |
| FilterModal.ToggleDifficulty | components/FilterModal.tsx:41-47 | flips one difficulty in the draft only |
| FilterModal.Apply | components/FilterModal.tsx:49-52 | the draft becomes the store's selection, nothing else in the store changes, and the modal closes |
| FilterModal.Cancel | components/FilterModal.tsx:91-95 | closes without touching the store |
| FilterModal.Clear | components/FilterModal.tsx:54-58 | clears the store's filters and the draft, and leaves the modal open |
| FilterModal.Edits | components/FilterModal.tsx:33-47 | any sequence of draft toggles leaves the store and visibility alone |
| FilterModal.CancelKeepsStore | components/FilterModal.tsx:91-95 | opening, editing and cancelling leaves the store as it was |
| FilterModal.ApplyUneditedKeepsStore | components/FilterModal.tsx:26-52 | opening and applying without edits leaves the store as it was |
| FilterModal.ToggleThenApply | components/FilterModal.tsx:26-52 | opening, toggling one cuisine and applying flips exactly that cuisine in the store |
| LikeButton.UpdateLocal | components/LikeButton.tsx:42-55 | only the matching videos change, and only their like counts, by exactly one |
| LikeButton.UpdateUndo | components/LikeButton.tsx:42-55 | an increment followed by a decrement (or the reverse) restores the list |
| LikeButton.DecrementNotClamped | components/LikeButton.tsx:45 | a decrement from zero likes gives minus one |
| LikeButton.PressAsWritten | components/LikeButton.tsx:61-89 | as written: a signed-out or local press does nothing; otherwise the call carries the flipped flag; a press the backend does not reject keeps the flipped flag and the one-step update; a rejected one restores the flag but applies the opposite update to the list captured before the press |
| LikeButton.StaleRevertOffByOne | components/LikeButton.tsx:68-88 | as written, a failing like on a video with 5 likes leaves it with 4 |
| LikeButton.Press | components/LikeButton.tsx:61-89 | corrected: a press the backend does not reject (saved, or refused with an empty, falsy message) flips the flag and moves the likes by one; a rejected or thrown one restores the flag and the store exactly |
| LikeButton.EmptyRefusalKept | components/LikeButton.tsx:76-81 | a refusal whose `error` is the empty string is not noticed: the press ends exactly as a saved one |
| LikeButton.PressTouchesOnlyLikes | components/LikeButton.tsx:42-89 | a press changes at most the like counts in the store |
| ChatInterface.HistoryOf | components/ChatInterface.tsx:57-60 | one history entry per message, role `User` or `AI` by sender, content the text |
| ChatInterface.PayloadFor | components/ChatInterface.tsx:63-67 | the description is the recipe context or a non-empty default; the question and history are passed on |
| ChatInterface.Send | components/ChatInterface.tsx:38-101 | a blank input does nothing; otherwise the trimmed question is appended, the answer is appended exactly when the reply is accepted, an alert is raised otherwise, and the input and loading flag are reset |
| ChatInterface.QuestionTrimmed | components/ChatInterface.tsx:39-43 | the question sent is non-blank and has no surrounding white space |
| ChatInterface.Encode | components/ChatInterface.tsx:63-73 | the payload is sent as a string that parses to an object holding exactly the description, the question and the history given, with no other key |
| ChatInterface.Decode | components/ChatInterface.tsx:76-78 | a reply is accepted exactly when the handler succeeded with a non-empty answer |
| ChatInterface.PanelMeetsHandler | components/ChatInterface.tsx:63-73 | a non-blank input always passes the handler's parameter check, so the provider is called with the panel's history |
| ChatInterface.SendAccepted | components/ChatInterface.tsx:78-86 | an accepted answer is shown after the question |
| ChatInterface.HandlerAnswers | components/ChatInterface.tsx:70-78 | the chat handler answers a client payload with the provider's answer |
| ChatInterface.AnswerShown | components/ChatInterface.tsx:38-101 | end to end: when the provider answers, the panel shows the question and then the answer |
| AudioRecorder.RequestFor | components/AudioRecorder.tsx:75-83 | the request targets `/transcribe` with `recording.m4a`, which the server accepts |
| AudioRecorder.FailureMessageAsWritten | components/AudioRecorder.tsx:100-104 | as written: a non-empty message that is the server's title alone whenever it is truthy, so details are dropped; without a title it begins "Transcription failed: " and contains the details, or a default when there are none |
| AudioRecorder.FailureMessage | components/AudioRecorder.tsx:100-104 | corrected: a non-empty message that begins with the title when there is one and always contains the details when there are any; it differs from the message as written only when both are present |
| AudioRecorder.UserMessage | components/AudioRecorder.tsx:112-122 | the first matching phrase picks the message; the no-speech message is shown exactly when speech is mentioned and the generic one exactly when no phrase matches; every message ends in ". Please try again." |
| AudioRecorder.Ended | components/AudioRecorder.tsx:87-104 | the recording succeeds exactly when the reply parses with success and a truthy transcription, which is returned |
| AudioRecorder.StopWith | components/AudioRecorder.tsx:54-127 | no recording is a no-op; otherwise the recorder is reset; a request is sent exactly when the URI is truthy and the file was read; the user sees the transcript or one error message |
| AudioRecorder.StopAsWritten | components/AudioRecorder.tsx:54-127 | as written, a failure's message is classified from the server's error title |
| AudioRecorder.Stop | components/AudioRecorder.tsx:54-127 | corrected, a failure's message is classified from title and details |
| AudioRecorder.NoMention | components/AudioRecorder.tsx:113-122 | text without an `N` matches no phrase and gets the default message |
| AudioRecorder.MentionsAfter | components/AudioRecorder.tsx:113-122 | a prefix without an `N` does not change the classification |
| AudioRecorder.MissingUriNotSpeech | components/AudioRecorder.tsx:63-114 | the missing-URI error does not mention speech |
| AudioRecorder.MissingUriNotNetwork | components/AudioRecorder.tsx:63-116 | the missing-URI error does not mention the network |
| AudioRecorder.MissingUriNamesUri | components/AudioRecorder.tsx:63-118 | the missing-URI error mentions "No recording URI" |
| AudioRecorder.SaveFailure | components/AudioRecorder.tsx:114-119 | a message mentioning only the recording URI gives "Failed to save recording" |
| AudioRecorder.MissingUriClassified | components/AudioRecorder.tsx:63-119 | the missing-URI error is shown as "Failed to save recording. Please try again." |
| AudioRecorder.MissingUriReported | components/AudioRecorder.tsx:54-127 | a recording whose URI is missing or empty sends nothing and reports the save failure |
| AudioRecorder.EmptyUriNotSent | components/AudioRecorder.tsx:62-63 | an empty URI is falsy: nothing is sent and the save failure is shown |
| AudioRecorder.Decode | components/AudioRecorder.tsx:87-97 | only the `/ping` text fails to parse; `success` is truthy exactly for transcript replies, since the readiness descriptor has no such key; exactly the handler's errors carry a truthy title; a transcription is read from transcript replies alone |
| AudioRecorder.Encode | components/AudioRecorder.tsx:75-86 | the handler receives the path, audio, decoded size, file name and MIME type as sent, and no chat field |
| AudioRecorder.RecordingValidated | components/AudioRecorder.tsx:75-83 | the client's request, with non-empty audio under the limit, passes every server check |
| AudioRecorder.TitleWithoutN | functions/whispertranscribe/src/main.js:27-176 | no server error title contains an `N` |
| AudioRecorder.ErrorDetailsIgnored | components/AudioRecorder.tsx:100-122 | as written, every server error, "No speech detected" included, is shown as "Failed to process recording. Please try again." |
| AudioRecorder.DetailsDecide | components/AudioRecorder.tsx:100-122 | corrected, the classification of a server error depends only on its details |
| AudioRecorder.ErrorDetailsClassified | components/AudioRecorder.tsx:100-122 | corrected, a server error is shown as its details classify |
| AudioRecorder.NoSpeechClassified | components/AudioRecorder.tsx:114-115 | the server's no-speech details classify as "No speech detected or audio was unclear" |
| AudioRecorder.SilenceReported | components/AudioRecorder.tsx:100-122 | corrected, the server's empty-transcript reply reaches the user as the no-speech message |
| AudioRecorder.TranscriptDelivered | components/AudioRecorder.tsx:54-127 | end to end: usable speech reaches `onTranscriptionComplete` as the transcript |

## Left out

- `null` and `undefined` are one value (`Option.None`) for the fields that are only tested for truthiness or compared with a string. `chatHistory` and `additionalContext` keep them apart (`Field`), because a default replaces `undefined` only. `JSON.parse` of a literal `null` body is modelled as `Null`.
- Request bodies are well typed: a parsed body is an object or `null`, and every scalar field read as a string (`path`, `videoDescription`, `question`, `additionalContext`, `audioData`, `fileName`, `mimeType`) is a string when present. A field of another JSON type, such as `"fileName": 5` (on which `split` throws inside the handler's `try`), is not modelled.
- History entries are records with a `role` and a `content` string. A `chatHistory` that is a non-array value, or entries of another shape, are not modelled.
- Error texts produced by the JavaScript engine (a `SyntaxError` from `JSON.parse`, the `TypeError` from destructuring or reading `path` of `null`) are approximated: a parse error's text is an input, and a `TypeError` is a constant string.
- Base64 decoding is not modelled: the request carries the decoded length instead of the data.
- `path.join` normalisation is not modelled: the temporary path is the directory, `/whisper_`, the time stamp, `_` and the file name, concatenated.
- A `createReadStream` failure is not a separate outcome. It surfaces through the speech provider's failure in both handlers, and the composite's "Failed to read audio file" text is not reproduced.
- `Composite.TranscriptionRunsIffAudio`: `aicomposite` never checks the API key itself, and the client constructors are not modelled. With no key, `new OpenAI` throws after the write and before any speech call, and `new ChatOpenAI` throws before the chat call. The model records the speech and chat calls anyway and takes their outcomes from the environment, so its claims about which provider is called assume a configured key. The same holds for `AiChat.Handle`.
- Clock reads (`Date.now`, `toISOString`) are parameters. The transcript body's timestamp is left out.
- The chat model's name, temperature and prompt template text are not modelled. The provider receives the prompt's fields and answers with an environment value.
- `onLikeCountChange` is left out because it is a notification callback with no effect on state. The `checkIfUserLikedVideo` initialisation of `isLiked` is left out too; the current flag is an input.
- `LikeButton.PressAsWritten`: React's asynchronous state batching is not modelled. The stale list is the one captured when the callback was created, which is the list before the optimistic update.
- Asynchronous ordering, React rendering, animation and scrolling are left out. Each client action is one atomic transition.
- The clients' handling of a response that `JSON.parse` turns into `null` or a non-object is not modelled. Every handler reply is a JSON object.
- The storage back end and zustand's internals are an input (`Stored`): a read that failed, an empty store, or a saved record. Writing to storage is `Partialize`.
- `startRecording`, permissions, a failing `stopAndUnloadAsync`, and the file-system read of the recording are left out. The base64 text and a read failure (`Unreadable`) are inputs.
- `Routes.GetTypedRoute`: the router's generated `StaticRoutes` type also holds screens outside the white-list, such as `/sign-in`, `/bookmarkDetail` and `/profile/bookmarks`. The model's `StaticRoute` has only the eight white-listed paths, so "every typed route is valid" holds of the model and not of the router's type.
- `Routes.IsValidRoute`: the route set is stated through the `StaticRoute` datatype. Strings outside it are rejected; the type-level narrowing `route is StaticRoutes` has no counterpart.
- `Js.LowerAscii`: only ASCII letters are lower-cased. Unicode case mapping of other characters does not affect the format check, because every supported format is ASCII.
- `AudioRecorder.Ended`: the `success` flag and a truthy `transcription` decide acceptance as in the source. A reply whose body fails to parse is a `Failure`, reported as "Invalid response format: " followed by the message.

## Findings

| source | as written | input that shows it | evidently intended | confidence | as-written member | corrected member |
|---|---|---|---|---|---|---|
| components/AudioRecorder.tsx:100-122 | the thrown message is the server's `error` title whenever it is truthy, so the `details` never reach the classification | the server's empty-transcript reply `{error: "Transcription failed", details: "No speech detected or audio was unclear"}` is shown as "Failed to process recording. Please try again." | the no-speech reply is shown as "No speech detected or audio was unclear. Please try again." | high, not executed | AudioRecorder.ErrorDetailsIgnored | AudioRecorder.SilenceReported |
| components/LikeButton.tsx:68-88 | the revert calls `updateLocalVideoState(!willLike)` on the `videos` captured before the optimistic update | like a video with 5 likes while the backend fails: the optimistic update sets 6, then the revert decrements the captured 5 and stores 4 | a failed like restores the 5 likes | high, not executed | LikeButton.StaleRevertOffByOne | LikeButton.Press |

=== FILE: aichat.dfy ===
/** The plain chat handler: parse the string body, require a video
    description and a question, render the history into the prompt, and
    answer with the provider's text. Every failure is `{success: false,
    error}` with status 500. */
module AiChat {
  import opened Base
  import opened Js
  import opened History
  import opened Providers
  import opened Effects
  import opened Http
  import opened Invocation

  const MissingMessage: string := "Missing required parameters: videoDescription or question"

  /** The runtime's message for `JSON.parse` of an already parsed object
      (which it first turns into the string "[object Object]"). */
  const ObjectBodyMessage: string := "\"[object Object]\" is not valid JSON"

  /** The runtime's message when the body parses to `null` and is destructured. */
  const NullBodyMessage: string := "Cannot destructure property 'videoDescription' of 'body' as it is null."

  /** `JSON.parse(req.body)`, applied whatever the body's type: `null`
      parses as the text "null", an object as the text "[object Object]". */
  function ParseBody(body: RawBody): (r: Result<Doc, string>)
    ensures body.Text? ==> r == body.json
    ensures body.Parsed? && body.doc.Object? ==> r.Failure?
  {
    match body
    case Text(json) => json
    case Parsed(Null) => Success(Null)
    case Parsed(Object(_)) => Failure(ObjectBodyMessage)
  }

  /** The values handed to the prompt template, after `chatHistory = []`.
      This template has no user-context slot. A `null` history survives
      the default and `map` throws on it before the chain is invoked. */
  function PromptFor(p: Payload): (r: Result<ChatPrompt, string>)
    requires Truthy(p.videoDescription) && Truthy(p.question)
    ensures r.Failure? <==> p.chatHistory.JsonNull?
    ensures r.Failure? ==> r.error == NullMapMessage
    ensures r.Success? ==>
      r.value.chatHistory == (if p.chatHistory.Given? then Render(p.chatHistory.value) else "")
    ensures r.Success? ==> r.value.additionalContext.Undefined?
    ensures r.Success? ==> r.value.videoDescription == p.videoDescription.value && r.value.question == p.question.value
  {
    match RenderField(p.chatHistory)
    case Failure(m) => Failure(m)
    case Success(history) => Success(ChatPrompt(p.videoDescription.value, Undefined, history, p.question.value))
  }

  /** The plain chat handler. */
  function Handle(req: Request, env: Env): (r: Run<string, ()>)
    // Every failure, a parse error included, is reported with status 500.
    ensures r.reply.Err? ==> r.reply.status == 500
    // The provider is called exactly when both required fields are truthy
    // and the history is not `null`, and then once.
    ensures ChatCalled(r.trace) <==>
      ParseBody(req.body).Success? && ParseBody(req.body).value.Object?
      && Truthy(ParseBody(req.body).value.payload.videoDescription)
      && Truthy(ParseBody(req.body).value.payload.question)
      && !ParseBody(req.body).value.payload.chatHistory.JsonNull?
    ensures |r.trace| <= 1
    // An answer is the provider's answer.
    ensures r.reply.Ok? <==> ChatCalled(r.trace) && env.chat.Answered?
    ensures r.reply.Ok? ==> r.reply.body == env.chat.answer
  {
    match ParseBody(req.body)
    case Failure(m) => Run(Err((), m, 500), [])
    case Success(Null) => Run(Err((), NullBodyMessage, 500), [])
    case Success(Object(p)) =>
      if !Truthy(p.videoDescription) || !Truthy(p.question) then Run(Err((), MissingMessage, 500), [])
      else
        match PromptFor(p)
        case Failure(m) => Run(Err((), m, 500), [])
        case Success(prompt) =>
          var trace := [ProviderCalled(Chat(prompt))];
          assert ChatCalled(trace) by { assert trace[0].ProviderCalled?; }
          match env.chat
          case Answered(a) => Run(Ok(a), trace)
          case ChatFailed(m) => Run(Err((), m, 500), trace)
  }

  /** A missing or empty description or question fails with the fixed
      message, without calling the provider. */
  lemma MissingParameters(req: Request, env: Env, p: Payload)
    requires ParseBody(req.body) == Success(Object(p))
    requires !Truthy(p.videoDescription) || !Truthy(p.question)
    ensures Handle(req, env) == Run(Err((), MissingMessage, 500), [])
  {
  }

  /** A string body that does not parse fails with the parser's message. */
  lemma ParseFailure(req: Request, env: Env)
    requires ParseBody(req.body).Failure?
    ensures Handle(req, env) == Run(Err((), ParseBody(req.body).error, 500), [])
  {
  }

  /** A request with both fields sends the rendered history (empty when
      the field is missing) and answers exactly `{answer, success: true}`
      with the provider's text; a `null` history fails with the runtime's
      `map` error and no call. */
  lemma ValidRequest(req: Request, env: Env, p: Payload)
    requires ParseBody(req.body) == Success(Object(p))
    requires Truthy(p.videoDescription) && Truthy(p.question)
    ensures p.chatHistory.JsonNull? ==> Handle(req, env) == Run(Err((), NullMapMessage, 500), [])
    ensures !p.chatHistory.JsonNull? ==>
      Handle(req, env).trace ==
        [ProviderCalled(Chat(ChatPrompt(p.videoDescription.value, Undefined,
                                        if p.chatHistory.Given? then Render(p.chatHistory.value) else "",
                                        p.question.value)))]
    ensures !p.chatHistory.JsonNull? && env.chat.Answered? ==> Handle(req, env).reply == Ok(env.chat.answer)
    ensures !p.chatHistory.JsonNull? && env.chat.ChatFailed? ==>
      Handle(req, env).reply == Err((), env.chat.message, 500)
  {
  }
}

=== FILE: audio_format.dfy ===
/** The audio validation constants and checks shared by the composite and
    the transcription handlers: a 25 MiB cap on the decoded payload and an
    allow-list of file extensions. */
module AudioFormat {
  import opened Js

  /** `SUPPORTED_FORMATS`. */
  const SupportedFormats: seq<string> := ["mp3", "mp4", "mpeg", "mpga", "m4a", "wav", "webm"]

  /** `MAX_FILE_SIZE`: 25 MiB, in bytes. */
  const MaxFileSize: nat := 25 * 1024 * 1024

  /** `fileName.split('.').pop().toLowerCase()`: the lower-cased text after
      the last dot, or the whole name when it has no dot. */
  function Extension(fileName: string): (r: string)
    ensures r == LowerAscii(AfterLast(fileName, '.'))
    ensures '.' !in r
  {
    LastPieceIsAfterLast(fileName, '.');
    LowerAscii(Last(Split(fileName, '.')))
  }

  /** `SUPPORTED_FORMATS.includes(fileExtension)`. */
  predicate Supported(fileName: string) {
    Extension(fileName) in SupportedFormats
  }

  /** `buffer.length > MAX_FILE_SIZE` is false. */
  predicate WithinLimit(decodedSize: nat) {
    decodedSize <= MaxFileSize
  }

  /** The extension of `stem.ext` is `ext` lower-cased, whatever dots the
      stem holds. */
  lemma ExtensionOfDotted(stem: string, ext: string)
    requires '.' !in ext
    ensures Extension(stem + "." + ext) == LowerAscii(ext)
  {
    var s := stem + "." + ext;
    assert s[|s| - |ext|..] == ext;
    AfterLastUnique(s, '.', ext);
  }

  /** A name without a dot is its own extension. */
  lemma ExtensionWithoutDot(fileName: string)
    requires '.' !in fileName
    ensures Extension(fileName) == LowerAscii(fileName)
  {
    AfterLastUnique(fileName, '.', fileName);
  }

  /** The recorder's fixed name is accepted. */
  lemma RecordingNameSupported()
    ensures Supported("recording.m4a")
  {
    ExtensionOfDotted("recording", "m4a");
    LowerAsciiFixed("m4a");
  }

  /** The comparison ignores ASCII case. */
  lemma UpperCaseSupported()
    ensures Supported("Voice.MP3")
  {
    ExtensionOfDotted("Voice", "MP3");
    assert LowerAscii("MP3") == "mp3";
  }

  /** Only the last segment counts: a double extension ending in a format
      is accepted. */
  lemma DoubleExtensionSupported()
    ensures Supported("clip.tar.wav")
  {
    ExtensionOfDotted("clip.tar", "wav");
    LowerAsciiFixed("wav");
  }

  /** A format name before the last dot does not help. */
  lemma EarlierSegmentIgnored()
    ensures !Supported("song.mp3.txt")
  {
    ExtensionOfDotted("song.mp3", "txt");
    LowerAsciiFixed("txt");
    assert Extension("song.mp3" + "." + "txt") == "txt";
    assert "song.mp3" + "." + "txt" == "song.mp3.txt";
    assert "txt" !in SupportedFormats;
  }

  /** A name without a dot is accepted when it is itself a format name. */
  lemma BareFormatNameSupported()
    ensures Supported("webm")
  {
    ExtensionWithoutDot("webm");
    LowerAsciiFixed("webm");
  }

  /** Exactly 25 MiB is accepted; one byte more is refused. */
  lemma LimitBoundary()
    ensures WithinLimit(26214400)
    ensures !WithinLimit(26214401)
  {
  }

  /** The list as the error messages print it. */
  lemma FormatsListing()
    ensures Join(SupportedFormats, ", ") == "mp3, mp4, mpeg, mpga, m4a, wav, webm"
  {
    var f := SupportedFormats;
    assert f[1..][1..][1..][1..][1..][1..] == ["webm"];
  }
}

=== FILE: audio_recorder.dfy ===
/** The voice-input button: stopping a recording sends the audio to the
    transcription handler and hands either the transcript or a short
    message to the chat panel. */
module AudioRecorder {
  import opened Base
  import opened Js
  import opened AudioFormat
  import opened Http
  import opened Invocation
  import opened Transcription
  import Whisper

  /** A recording and the file URI it reports once stopped. */
  datatype Recording = Recording(uri: Option<string>)

  /** The button's state. */
  datatype Recorder = Recorder(recording: Option<Recording>, isRecording: bool, isProcessing: bool)

  /** The JSON body sent to the transcription handler. */
  datatype TranscribeRequest = TranscribeRequest(path: string, audioData: string, fileName: string, mimeType: string)

  /** The fields of the parsed response that the button reads. */
  datatype ResultDoc = ResultDoc(success: bool, transcription: Option<string>, error: Option<string>, details: Option<string>)

  /** What happens after the URI is known: stopping or reading the file
      throws, the execution call throws, or a response body arrives (with
      what `JSON.parse` makes of it, or the parser's message). */
  datatype Delivery =
    | Unreadable(message: string)
    | CallFailed(message: string)
    | Delivered(body: Result<ResultDoc, string>)

  /** What the chat panel is told: the transcript, or an error message. */
  datatype Notice = Transcribed(text: string) | Reported(message: string)

  /** The outcome of `stopRecording`. */
  datatype Stopped = Stopped(recorder: Recorder, request: Option<TranscribeRequest>, notice: Option<Notice>)

  const TranscribePath: string := "/transcribe"
  const RecordingName: string := "recording.m4a"
  const RecordingMime: string := "audio/m4a"
  const MissingUriMessage: string := "No recording URI available"
  const Retry: string := ". Please try again."
  const FailedPrefix: string := "Transcription failed: "

  /** The request for a file read as base64 text. */
  function RequestFor(audio: string): (q: TranscribeRequest)
    ensures q.path == TranscribePath && q.fileName == RecordingName && q.mimeType == RecordingMime
    ensures Supported(q.fileName)
  {
    RecordingNameSupported();
    TranscribeRequest(TranscribePath, audio, RecordingName, RecordingMime)
  }

  /** The message thrown for a response that is not a transcript, as
      written: the server's `error` title when present, otherwise a
      sentence built from `details`. */
  function FailureMessageAsWritten(doc: ResultDoc): (m: string)
    // Something is always thrown with a non-empty message ...
    ensures m != ""
    // ... which is the title alone whenever there is one ...
    ensures Truthy(doc.error) ==> m == doc.error.value
    // ... and otherwise carries the details, when there are any.
    ensures !Truthy(doc.error) ==> FailedPrefix <= m
    ensures !Truthy(doc.error) && Truthy(doc.details) ==> Includes(m, doc.details.value)
    ensures !Truthy(doc.error) && !Truthy(doc.details) ==> m == FailedPrefix + "No error details provided"
  {
    if Truthy(doc.error) then doc.error.value
    else
      var details := Or(doc.details, "No error details provided");
      IncludesSuffix(FailedPrefix, details);
      FailedPrefix + details
  }

  /** The same message with the server's `details` kept after its title,
      so the classification below can see them. */
  function FailureMessage(doc: ResultDoc): (m: string)
    ensures m != ""
    // The title, when there is one, leads the message ...
    ensures Truthy(doc.error) ==> doc.error.value <= m
    // ... and the details, when there are any, are never lost.
    ensures Truthy(doc.details) ==> Includes(m, doc.details.value)
    // Only a reply with both differs from the message as written.
    ensures !(Truthy(doc.error) && Truthy(doc.details)) ==> m == FailureMessageAsWritten(doc)
  {
    if Truthy(doc.error) && Truthy(doc.details) then
      IncludesSuffix(doc.error.value + ": ", doc.details.value);
      doc.error.value + ": " + doc.details.value
    else FailureMessageAsWritten(doc)
  }

  /** The user-facing message for a thrown message: the first of three
      known conditions it mentions, else a generic one, always followed by
      ". Please try again.". */
  function UserMessage(thrown: string): (m: string)
    ensures Includes(thrown, "No speech detected") ==>
      m == "No speech detected or audio was unclear" + Retry
    ensures !Includes(thrown, "No speech detected") && Includes(thrown, "Network request failed") ==>
      m == "Network error - please check your connection" + Retry
    ensures (!Includes(thrown, "No speech detected") && !Includes(thrown, "Network request failed")
             && Includes(thrown, "No recording URI")) ==> m == "Failed to save recording" + Retry
    ensures (!Includes(thrown, "No speech detected") && !Includes(thrown, "Network request failed")
             && !Includes(thrown, "No recording URI")) ==> m == "Failed to process recording" + Retry
    // Each message is told apart by its reason, so the user learns which
    // condition was found, and every one ends with the invitation to retry.
    ensures m == "No speech detected or audio was unclear" + Retry <==> Includes(thrown, "No speech detected")
    ensures m == "Failed to process recording" + Retry <==>
      !Includes(thrown, "No speech detected") && !Includes(thrown, "Network request failed")
      && !Includes(thrown, "No recording URI")
    ensures |m| > |Retry| && m[|m| - |Retry|..] == Retry
  {
    var reason :=
      if Includes(thrown, "No speech detected") then "No speech detected or audio was unclear"
      else if Includes(thrown, "Network request failed") then "Network error - please check your connection"
      else if Includes(thrown, "No recording URI") then "Failed to save recording"
      else "Failed to process recording";
    reason + Retry
  }

  /** How the `try` block ends: with the transcript, or with the message
      of the error it throws, given how failures are worded. */
  function Ended(delivery: Delivery, failure: ResultDoc -> string): (r: Result<string, string>)
    ensures r.Success? <==>
      delivery.Delivered? && delivery.body.Success? && delivery.body.value.success
      && Truthy(delivery.body.value.transcription)
    ensures r.Success? ==> r.value == delivery.body.value.transcription.value
  {
    match delivery
    case Unreadable(m) => Failure(m)
    case CallFailed(m) => Failure(m)
    case Delivered(Failure(parse)) => Failure("Invalid response format: " + parse)
    case Delivered(Success(doc)) =>
      if doc.success && Truthy(doc.transcription) then Success(doc.transcription.value)
      else Failure(failure(doc))
  }

  /** `stopRecording`, with failures worded by `failure`. */
  function StopWith(r: Recorder, audio: string, delivery: Delivery, failure: ResultDoc -> string): (s: Stopped)
    // Without a recording the button does nothing.
    ensures r.recording.None? ==> s == Stopped(r, None, None)
    // Otherwise processing ends and the recording is released, whatever happens ...
    ensures r.recording.Some? ==> s.recorder == Recorder(None, false, false) && s.notice.Some?
    // ... the handler is called exactly when there is a file to read ...
    ensures s.request.Some? <==> r.recording.Some? && Truthy(r.recording.value.uri) && !delivery.Unreadable?
    ensures s.request.Some? ==> s.request.value == RequestFor(audio)
    // ... and the transcript is passed on exactly when the response is a successful one.
    ensures s.notice.Some? && s.notice.value.Transcribed? <==>
      r.recording.Some? && Truthy(r.recording.value.uri) && Ended(delivery, failure).Success?
    ensures s.notice.Some? && s.notice.value.Transcribed? ==> s.notice.value.text == Ended(delivery, failure).value
  {
    if r.recording.None? then Stopped(r, None, None)
    else
      var done := Recorder(None, false, false);
      if !Truthy(r.recording.value.uri) then Stopped(done, None, Some(Reported(UserMessage(MissingUriMessage))))
      else
        var request := if delivery.Unreadable? then None else Some(RequestFor(audio));
        match Ended(delivery, failure)
        case Success(text) => Stopped(done, request, Some(Transcribed(text)))
        case Failure(m) => Stopped(done, request, Some(Reported(UserMessage(m))))
  }

  /** `stopRecording` as written. */
  function StopAsWritten(r: Recorder, audio: string, delivery: Delivery): (s: Stopped)
    ensures s == StopWith(r, audio, delivery, FailureMessageAsWritten)
    ensures s.notice.Some? && s.notice.value.Reported? ==> s.notice.value.message == UserMessage(
      if !Truthy(r.recording.value.uri) then MissingUriMessage else Ended(delivery, FailureMessageAsWritten).error)
  {
    StopWith(r, audio, delivery, FailureMessageAsWritten)
  }

  /** `stopRecording` with the server's details kept in the message. */
  function Stop(r: Recorder, audio: string, delivery: Delivery): (s: Stopped)
    ensures s == StopWith(r, audio, delivery, FailureMessage)
    ensures s.notice.Some? && s.notice.value.Reported? ==> s.notice.value.message == UserMessage(
      if !Truthy(r.recording.value.uri) then MissingUriMessage else Ended(delivery, FailureMessage).error)
  {
    StopWith(r, audio, delivery, FailureMessage)
  }

  /** A message without the letter N mentions none of the conditions. */
  lemma {:induction false} NoMention(pre: string)
    requires 'N' !in pre
    ensures UserMessage(pre) == "Failed to process recording" + Retry
  {
    assert pre + "" == pre;
    IncludesAfterPrefix(pre, "", "No speech detected");
    IncludesAfterPrefix(pre, "", "Network request failed");
    IncludesAfterPrefix(pre, "", "No recording URI");
  }

  /** A prefix without the letter N does not change the classification. */
  lemma {:induction false} MentionsAfter(pre: string, s: string)
    requires 'N' !in pre
    ensures UserMessage(pre + s) == UserMessage(s)
  {
    IncludesAfterPrefix(pre, s, "No speech detected");
    IncludesAfterPrefix(pre, s, "Network request failed");
    IncludesAfterPrefix(pre, s, "No recording URI");
  }

  /** Two strings that differ at `k` differ. */
  lemma HeadDiffers(m: string, sub: string, k: nat)
    requires k < |sub| <= |m| && m[k] != sub[k]
    ensures m[..|sub|] != sub
  {
    assert m[..|sub|][k] == m[k];
  }

  /** `sub` is not in `m` when it does not start `m` and its first
      character does not occur later in `m`. */
  lemma {:induction false} SkipHead(m: string, sub: string, k: nat)
    requires 0 < k < |sub| <= |m| && m[k] != sub[k] && sub[0] !in m[1..]
    ensures !Includes(m, sub)
  {
    HeadDiffers(m, sub, k);
    IncludesAfterPrefix(m[1..], "", sub);
    assert m[1..] + "" == m[1..];
  }

  /** The message for a missing URI mentions neither of the first two
      conditions. */
  lemma {:induction false} MissingUriNotSpeech()
    ensures !Includes(MissingUriMessage, "No speech detected")
  {
    MissingUriTail();
    SkipHead(MissingUriMessage, "No speech detected", 3);
  }

  lemma {:induction false} MissingUriNotNetwork()
    ensures !Includes(MissingUriMessage, "Network request failed")
  {
    MissingUriTail();
    SkipHead(MissingUriMessage, "Network request failed", 1);
  }

  /** The only N of the missing-URI message is its first character. */
  lemma MissingUriTail()
    ensures |MissingUriMessage| == 26 && MissingUriMessage[1] == 'o' && MissingUriMessage[3] == 'r'
    ensures 'N' !in MissingUriMessage[1..]
  {
  }

  /** The message for a missing URI mentions the third condition. */
  lemma {:induction false} MissingUriNamesUri()
    ensures Includes(MissingUriMessage, "No recording URI")
  {
    assert MissingUriMessage[..|"No recording URI"|] == "No recording URI";
  }

  /** The classification of a message that mentions only the third condition. */
  lemma SaveFailure(m: string)
    requires !Includes(m, "No speech detected") && !Includes(m, "Network request failed")
    requires Includes(m, "No recording URI")
    ensures UserMessage(m) == "Failed to save recording" + Retry
  {
  }

  /** The message for a missing URI is classified as a failed save. */
  lemma MissingUriClassified()
    ensures UserMessage(MissingUriMessage) == "Failed to save recording" + Retry
  {
    MissingUriNotSpeech();
    MissingUriNotNetwork();
    MissingUriNamesUri();
    SaveFailure(MissingUriMessage);
  }

  /** A recording whose file has no URI, or an empty one, is reported as a
      failed save, and the handler is not called. */
  lemma MissingUriReported(r: Recorder, audio: string, delivery: Delivery)
    requires r.recording.Some? && !Truthy(r.recording.value.uri)
    ensures Stop(r, audio, delivery).notice == Some(Reported("Failed to save recording" + Retry))
    ensures Stop(r, audio, delivery).request.None?
  {
    MissingUriClassified();
  }

  /** An empty URI is falsy: nothing is sent and the save failure is shown,
      whatever the file system would have done. */
  lemma EmptyUriNotSent(audio: string, delivery: Delivery)
    ensures var s := Stop(Recorder(Some(Recording(Some(""))), true, false), audio, delivery);
      s.request.None? && s.notice == Some(Reported("Failed to save recording" + Retry))
  {
    MissingUriReported(Recorder(Some(Recording(Some(""))), true, false), audio, delivery);
  }

  // -----------------------------------------------------------------------
  // Against the transcription handler
  // -----------------------------------------------------------------------

  /** The handler invocation the request becomes; `decodedSize` is the byte
      length of the recording. */
  function Encode(q: TranscribeRequest, decodedSize: nat): (req: Request)
    ensures req.body.Text? && req.body.json.Success? && req.body.json.value.Object?
    // The four keys of the request arrive as given; no chat key is sent.
    ensures var p := req.body.json.value.payload;
      && p.path == Some(q.path)
      && p.audioData == Some(q.audioData) && p.decodedSize == decodedSize
      && p.fileName == Some(q.fileName) && p.mimeType == Some(q.mimeType)
      && p.videoDescription.None? && p.question.None?
      && p.chatHistory.Undefined? && p.additionalContext.Undefined?
  {
    Request("/", Text(Success(Object(Payload(Some(q.path), None, None, Undefined, Undefined,
      Some(q.audioData), decodedSize, Some(q.fileName), Some(q.mimeType))))))
  }

  /** The handler's reply as the button parses it. */
  function Decode(reply: Reply<Whisper.Body, Whisper.Failure>): (r: Result<ResultDoc, string>)
    ensures reply.Err? ==> r == Success(ResultDoc(false, None, Some(reply.kind.Title()), Some(reply.message)))
    ensures reply.Ok? && reply.body.Transcript? ==> r == Success(ResultDoc(true, Some(reply.body.transcription), None, None))
    // Only the health check's plain-text reply fails to parse ...
    ensures r.Failure? <==> reply.Ok? && reply.body.Pong?
    // ... `success` is set by transcript replies alone (the descriptor has
    // no such key, which reads as falsy) ...
    ensures r.Success? && r.value.success <==> reply.Ok? && reply.body.Transcript?
    // ... every error reply, and only an error reply, carries a title ...
    ensures r.Success? && Truthy(r.value.error) <==> reply.Err?
    // ... and a transcription is read from transcript replies alone.
    ensures r.Success? && r.value.transcription.Some? <==> reply.Ok? && reply.body.Transcript?
  {
    match reply
    case Ok(Transcript(text, _, _, _, _, _)) => Success(ResultDoc(true, Some(text), None, None))
    case Ok(Ready(_, _, _, _)) => Success(ResultDoc(false, None, None, None))
    case Ok(Pong) => Failure("Unexpected token 'P', \"Pong\" is not valid JSON")
    case Err(kind, message, _) => Success(ResultDoc(false, None, Some(kind.Title()), Some(message)))
  }

  /** A recording within the size limit always passes the handler's
      validation: its name's extension is on the allow-list. */
  lemma RecordingValidated(audio: string, decodedSize: nat)
    requires audio != "" && WithinLimit(decodedSize)
    ensures Encode(RequestFor(audio), decodedSize).body.json.value.Object?
    ensures Validated(Encode(RequestFor(audio), decodedSize).body.json.value.payload)
  {
    var q := RequestFor(audio);
    var p := Encode(q, decodedSize).body.json.value.payload;
    assert p.fileName == Some(q.fileName) && p.audioData == Some(audio) && p.mimeType == Some(q.mimeType);
    assert HasAudio(p);
    assert Supported(p.fileName.value);
  }

  /** No failure title of the handler holds the letter N. */
  lemma TitleWithoutN(kind: Whisper.Failure)
    ensures 'N' !in kind.Title()
  {
    match kind
    case ConfigurationError =>
    case InvalidBody =>
    case InvalidRequest =>
    case FileTooLarge =>
    case UnsupportedFile =>
    case TranscriptionFailed =>
    case InternalError =>
  }

  /** As written, every error reply of the handler reaches the user as
      the generic message, whatever its details say: in particular the
      handler's "No speech detected or audio was unclear" does not. */
  lemma ErrorDetailsIgnored(r: Recorder, audio: string, kind: Whisper.Failure, details: string, status: int)
    requires r.recording.Some? && Truthy(r.recording.value.uri)
    ensures StopAsWritten(r, audio, Delivered(Decode(Err(kind, details, status)))).notice
      == Some(Reported("Failed to process recording" + Retry))
  {
    TitleWithoutN(kind);
    NoMention(kind.Title());
  }

  /** With the details kept, the message of an error reply is classified
      by its details alone. */
  lemma {:induction false} DetailsDecide(kind: Whisper.Failure, details: string)
    requires details != ""
    ensures UserMessage(FailureMessage(ResultDoc(false, None, Some(kind.Title()), Some(details))))
      == UserMessage(details)
  {
    TitleWithoutN(kind);
    var pre := kind.Title() + ": ";
    assert 'N' !in pre;
    MentionsAfter(pre, details);
    assert kind.Title() + ": " + details == pre + details;
  }

  /** With the details kept, an error reply is classified by its details. */
  lemma ErrorDetailsClassified(r: Recorder, audio: string, kind: Whisper.Failure, details: string, status: int)
    requires r.recording.Some? && Truthy(r.recording.value.uri) && details != ""
    ensures Stop(r, audio, Delivered(Decode(Err(kind, details, status)))).notice
      == Some(Reported(UserMessage(details)))
  {
    DetailsDecide(kind, details);
  }

  /** The handler's message for a silent recording names the first condition. */
  lemma NoSpeechClassified()
    ensures UserMessage(Whisper.NoSpeechDetails) == "No speech detected or audio was unclear" + Retry
  {
    assert Whisper.NoSpeechDetails[..|"No speech detected"|] == "No speech detected";
  }

  /** The handler's reply to a silent recording reaches the user as "No
      speech detected or audio was unclear. Please try again." once the
      details are kept. */
  lemma SilenceReported(r: Recorder, audio: string, status: int)
    requires r.recording.Some? && Truthy(r.recording.value.uri)
    ensures Stop(r, audio, Delivered(Decode(Err(Whisper.TranscriptionFailed, Whisper.NoSpeechDetails, status)))).notice
      == Some(Reported("No speech detected or audio was unclear" + Retry))
  {
    ErrorDetailsClassified(r, audio, Whisper.TranscriptionFailed, Whisper.NoSpeechDetails, status);
    NoSpeechClassified();
  }

  /** A usable transcript from the provider is what the chat panel receives. */
  lemma TranscriptDelivered(r: Recorder, audio: string, decodedSize: nat, env: Env)
    requires r.recording.Some? && Truthy(r.recording.value.uri)
    requires audio != "" && WithinLimit(decodedSize) && Truthy(env.openAiKey)
    requires env.writeError.None? && env.speech.Transcribed? && Usable(env.speech.text)
    ensures var reply := Whisper.Handle(Encode(RequestFor(audio), decodedSize), env).reply;
      Stop(r, audio, Delivered(Decode(reply))).notice == Some(Transcribed(env.speech.text.value))
  {
    var req := Encode(RequestFor(audio), decodedSize);
    var p := req.body.json.value.payload;
    RecordingValidated(audio, decodedSize);
    Whisper.TranscriptAnswered(req, env, p);
  }
}

=== FILE: auth_navigation.dfy ===
/** The root layout's authentication guard: it subscribes to sign-in
    changes once the store is rehydrated, and redirects between the auth
    screens and the tabs according to whether a user is signed in. */
module AuthNavigation {
  import opened Base
  import opened Store
  import opened Routes

  /** What the redirect effect does. */
  datatype Navigation = Stay | ReplaceTo(route: string)

  /** `segments[0] === '(auth)'`; an empty list has no first segment. */
  predicate InAuthGroup(segments: seq<string>) {
    |segments| > 0 && segments[0] == "(auth)"
  }

  /** The redirect effect. `segments` is `None` when the router reports none. */
  function Redirect(segments: Option<seq<string>>, isAuthReady: bool, isHydrated: bool,
                    user: Option<User>): (r: Navigation)
    // Nothing happens before the segments, the auth state and the store are all ready.
    ensures r.ReplaceTo? ==> segments.Some? && isAuthReady && isHydrated
    // Signed out outside the auth group: to sign-in.
    ensures r == ReplaceTo(AuthSignInRoute) <==>
      segments.Some? && isAuthReady && isHydrated && user.None? && !InAuthGroup(segments.value)
    // Signed in inside the auth group: to the tabs root.
    ensures r == ReplaceTo(TabsRootRoute) <==>
      segments.Some? && isAuthReady && isHydrated && user.Some? && InAuthGroup(segments.value)
    // The other two combinations stay.
    ensures r.ReplaceTo? ==> r.route == AuthSignInRoute || r.route == TabsRootRoute
  {
    if segments.None? || !isAuthReady || !isHydrated then Stay
    else if user.None? && !InAuthGroup(segments.value) then ReplaceTo(AuthSignInRoute)
    else if user.Some? && InAuthGroup(segments.value) then ReplaceTo(TabsRootRoute)
    else Stay
  }

  /** Every redirect targets a white-listed route. */
  lemma RedirectTargetsValid(segments: Option<seq<string>>, isAuthReady: bool, isHydrated: bool,
                             user: Option<User>)
    ensures var r := Redirect(segments, isAuthReady, isHydrated, user);
      r.ReplaceTo? ==> IsValidRoute(r.route)
  {
  }

  /** Once the redirect is followed, the screen it lands on asks for no
      further redirect while the user stays the same. */
  lemma RedirectSettles(segments: seq<string>, user: Option<User>)
    requires Redirect(Some(segments), true, true, user).ReplaceTo?
    ensures var target := Lookup(Redirect(Some(segments), true, true, user).route);
      && target.Some?
      && Redirect(Some(target.value.Segments()), true, true, user) == Stay
  {
  }

  // -----------------------------------------------------------------------
  // The subscription effect
  // -----------------------------------------------------------------------

  /** The handler's state: the store (for `user` and `isHydrated`), its own
      `isAuthReady`, and whether an auth listener is currently registered. */
  datatype Guard = Guard(store: AppState, isAuthReady: bool, subscribed: bool)

  /** What can happen to the handler: the store's hydration flag changes,
      or the auth service reports a (possibly absent) user. */
  datatype Event = HydrationChanged(hydrated: bool) | AuthChanged(user: Option<User>)

  /** The handler as it mounts over the store `s`: auth is not ready, and
      the subscription effect's first run registers a listener exactly when
      the store is already hydrated. The fonts gate the mount, so either
      order of mount and rehydration can happen. */
  function Mount(s: AppState): (g: Guard)
    ensures g.store == s && !g.isAuthReady
    ensures g.subscribed <==> s.isHydrated
    ensures Consistent(g) && Synced(g)
  {
    Guard(s, false, s.isHydrated)
  }


  /** One event. A change of `isHydrated` re-runs the subscription effect:
      the previous listener (if any) is removed and a new one registered
      only when hydrated. An auth report reaches the handler only through a
      registered listener, which stores the user and marks auth ready. */
  function OnEvent(g: Guard, e: Event): (r: Guard)
    ensures Consistent(g) ==> Consistent(r)
    ensures Synced(g) ==> Synced(r)
    // A hydration event sets the store's flag and leaves readiness alone ...
    ensures e.HydrationChanged? ==> r.store.isHydrated == e.hydrated && r.isAuthReady == g.isAuthReady
    ensures e.HydrationChanged? && e.hydrated != g.store.isHydrated ==> r.subscribed == e.hydrated
    ensures e.AuthChanged? && !g.subscribed ==> r == g
    ensures e.AuthChanged? && g.subscribed ==> r.store.user == e.user && r.isAuthReady
    // ... and no event touches any other part of the store.
    ensures r.store.(user := g.store.user, isHydrated := g.store.isHydrated) == g.store
    ensures r.store.selectedCuisines == g.store.selectedCuisines
  {
    match e
    case HydrationChanged(h) =>
      if h == g.store.isHydrated then g
      else Guard(SetHydrated(g.store, h), g.isAuthReady, h)
    case AuthChanged(u) =>
      if g.subscribed then g.(store := SetUser(g.store, u), isAuthReady := true) else g
  }

  /** The state after a sequence of events. */
  function Run(g: Guard, es: seq<Event>): Guard
    decreases |es|
  {
    if |es| == 0 then g else Run(OnEvent(g, es[0]), es[1..])
  }

  /** A listener is only ever registered while the store is hydrated. */
  predicate Consistent(g: Guard) {
    g.subscribed ==> g.store.isHydrated
  }

  /** A listener is registered exactly while the store is hydrated. */
  predicate Synced(g: Guard) {
    g.subscribed <==> g.store.isHydrated
  }

  /** Any run keeps both invariants: from a mount, a listener is
      registered exactly while the store is hydrated. */
  lemma {:induction false} RunConsistent(g: Guard, es: seq<Event>)
    requires Consistent(g)
    ensures Consistent(Run(g, es))
    ensures Synced(g) ==> Synced(Run(g, es))
    decreases |es|
  {
    if |es| > 0 {
      RunConsistent(OnEvent(g, es[0]), es[1..]);
    }
  }

  /** Whatever the order of mount and rehydration, auth becomes ready only
      through an auth report that arrives while a listener is registered,
      and so while the store is hydrated. */
  lemma {:induction false} ReadyNeedsHydratedReport(g: Guard, es: seq<Event>)
    requires Consistent(g) && !g.isAuthReady
    requires Run(g, es).isAuthReady
    ensures exists j :: 0 <= j < |es| && es[j].AuthChanged?
                        && Run(g, es[..j]).subscribed && Run(g, es[..j]).store.isHydrated
    decreases |es|
  {
    assert |es| > 0;
    assert es[..0] == [];
    if es[0].AuthChanged? && g.subscribed {
      assert Run(g, es[..0]) == g;
    } else {
      var g' := OnEvent(g, es[0]);
      ReadyNeedsHydratedReport(g', es[1..]);
      var j :| 0 <= j < |es[1..]| && es[1..][j].AuthChanged?
               && Run(g', es[1..][..j]).subscribed && Run(g', es[1..][..j]).store.isHydrated;
      assert es[..j + 1][0] == es[0] && es[..j + 1][1..] == es[1..][..j];
      assert Run(g, es[..j + 1]) == Run(g', es[1..][..j]);
      assert es[j + 1].AuthChanged?;
    }
  }

  /** A handler mounted over a store that is already hydrated becomes
      auth-ready on the first auth report, with no hydration event. */
  lemma MountedHydratedFirstReport(s: AppState, u: Option<User>)
    requires s.isHydrated
    ensures Run(Mount(s), [AuthChanged(u)]).isAuthReady
    ensures Run(Mount(s), [AuthChanged(u)]).store.user == u
  {
    assert [AuthChanged(u)][1..] == [];
  }

  /** Mounted before rehydration, auth becomes ready only through an auth
      report that came after a hydration event; until then no redirect
      happens. */
  lemma {:induction false} ReadyNeedsHydrationFirst(g: Guard, es: seq<Event>)
    requires !g.isAuthReady && !g.subscribed
    requires Run(g, es).isAuthReady
    ensures exists i, j :: 0 <= i < j < |es| && es[i] == HydrationChanged(true) && es[j].AuthChanged?
    decreases |es|
  {
    assert |es| > 0;
    var g' := OnEvent(g, es[0]);
    if es[0].HydrationChanged? && es[0].hydrated && g'.subscribed {
      SubscribedThenReport(g', es[1..]);
      var j :| 0 <= j < |es[1..]| && es[1..][j].AuthChanged?;
      assert es[j + 1].AuthChanged?;
    } else {
      assert !g'.isAuthReady && !g'.subscribed;
      ReadyNeedsHydrationFirst(g', es[1..]);
      var i, j :| 0 <= i < j < |es[1..]| && es[1..][i] == HydrationChanged(true) && es[1..][j].AuthChanged?;
      assert es[i + 1] == HydrationChanged(true) && es[j + 1].AuthChanged?;
    }
  }

  /** Auth readiness, once absent, can only appear through an auth report. */
  lemma {:induction false} SubscribedThenReport(g: Guard, es: seq<Event>)
    requires !g.isAuthReady
    requires Run(g, es).isAuthReady
    ensures exists j :: 0 <= j < |es| && es[j].AuthChanged?
    decreases |es|
  {
    assert |es| > 0;
    if !es[0].AuthChanged? {
      SubscribedThenReport(OnEvent(g, es[0]), es[1..]);
      var j :| 0 <= j < |es[1..]| && es[1..][j].AuthChanged?;
      assert es[j + 1].AuthChanged?;
    }
  }

  /** Right after mount no redirect is requested, whatever the segments
      and whether or not the store is already hydrated. */
  lemma NoRedirectAtMount(s: AppState, segments: Option<seq<string>>)
    ensures Redirect(segments, Mount(s).isAuthReady, Mount(s).store.isHydrated, Mount(s).store.user) == Stay
  {
  }
}

=== FILE: base.dfy ===
/** Failure-compatible wrappers shared by every module of the model. */
module Base {

  /** A JSON field or JavaScript value that may be absent: `None` stands for
      both `undefined` and `null`, for fields that are only tested for
      truthiness or compared with a string. */
  datatype Option<+T> = None | Some(value: T) {

    /** The value, or `default` when absent (a destructuring default). */
    function GetOr(default: T): T {
      match this
      case Some(v) => v
      case None => default
    }
  }

  /** A JSON field whose `null` and missing cases behave differently: a
      default in a destructuring pattern or a parameter list replaces
      `undefined` only, so `null` flows on to where the value is used. */
  datatype Field<+T> = Undefined | JsonNull | Given(value: T) {

    /** The field after a default `= d`. */
    function Defaulted(d: T): Field<T> {
      match this
      case Undefined => Given(d)
      case _ => this
    }
  }

  /** The outcome of a step that can throw: a value, or the thrown error. */
  datatype Result<+T, +E> = Success(value: T) | Failure(error: E)
}

=== FILE: chat_interface.dfy ===
/** The chat panel: sending a question about a recipe to the plain chat
    handler, with the conversation so far as history, and appending the
    answer when the handler accepts the request. */
module ChatInterface {
  import opened Base
  import opened Js
  import opened History
  import opened Providers
  import opened Effects
  import opened Http
  import opened Invocation
  import AiChat

  /** A bubble of the conversation (its id and timestamp left out). */
  datatype Message = Message(text: string, isUser: bool)

  /** The panel's state. */
  datatype Panel = Panel(messages: seq<Message>, input: string, isLoading: bool)

  /** The JSON payload sent to the chat handler. */
  datatype ChatPayload = ChatPayload(videoDescription: string, question: string, chatHistory: seq<Turn>)

  /** What the execution call yields: the parsed response fields, or a
      throw (the call failing, the body not parsing, or parsing to `null`). */
  datatype Response = Responded(success: bool, answer: Option<string>) | Threw

  /** The outcome of one send: the new state, the payload sent (if any),
      and whether the error alert was shown. */
  datatype Sent = Sent(panel: Panel, request: Option<ChatPayload>, alerted: bool)

  const NoContext: string := "No context provided"

  /** `messages.map(...)`: user bubbles become "User" turns, the rest "AI",
      in order. */
  function HistoryOf(messages: seq<Message>): (h: seq<Turn>)
    ensures |h| == |messages|
    ensures forall i :: 0 <= i < |h| ==>
      h[i].content == messages[i].text && (h[i].role == "User" <==> messages[i].isUser)
    ensures forall i :: 0 <= i < |h| ==> h[i].role == "User" || h[i].role == "AI"
  {
    seq(|messages|, i requires 0 <= i < |messages| =>
      Turn(if messages[i].isUser then "User" else "AI", messages[i].text))
  }

  /** The payload for `question`, with the messages that existed before the send. */
  function PayloadFor(recipeContext: Option<string>, messages: seq<Message>, question: string): (p: ChatPayload)
    ensures p.videoDescription != ""
    ensures Truthy(recipeContext) ==> p.videoDescription == recipeContext.value
    ensures p.question == question && p.chatHistory == HistoryOf(messages)
  {
    ChatPayload(Or(recipeContext, NoContext), question, HistoryOf(messages))
  }

  /** `responseData.success && responseData.answer`. */
  predicate Accepted(r: Response) {
    r.Responded? && r.success && Truthy(r.answer)
  }

  /** `sendMessage`. */
  function Send(c: Panel, recipeContext: Option<string>, response: Response): (r: Sent)
    // Blank input does nothing.
    ensures Blank(c.input) ==> r == Sent(c, None, false)
    ensures !Blank(c.input) ==>
      // The trimmed text is the question and joins the conversation first ...
      && r.request == Some(PayloadFor(recipeContext, c.messages, Trim(c.input)))
      && |r.panel.messages| >= |c.messages| + 1
      && r.panel.messages[..|c.messages| + 1] == c.messages + [Message(Trim(c.input), true)]
      // ... the answer follows exactly when the response is accepted ...
      && (Accepted(response) <==> |r.panel.messages| == |c.messages| + 2)
      && (Accepted(response) ==> r.panel.messages[|c.messages| + 1] == Message(response.answer.value, false))
      // ... otherwise the alert is shown; the input is cleared and loading ends.
      && (r.alerted <==> !Accepted(response))
      && r.panel.input == "" && !r.panel.isLoading
  {
    if Blank(c.input) then Sent(c, None, false)
    else
      var question := Trim(c.input);
      var withQuestion := c.messages + [Message(question, true)];
      var payload := PayloadFor(recipeContext, c.messages, question);
      if Accepted(response) then
        Sent(Panel(withQuestion + [Message(response.answer.value, false)], "", false), Some(payload), false)
      else
        Sent(Panel(withQuestion, "", false), Some(payload), true)
  }

  /** The question is never blank and never has white space at its ends. */
  lemma QuestionTrimmed(c: Panel, recipeContext: Option<string>, response: Response)
    requires Send(c, recipeContext, response).request.Some?
    ensures var q := Send(c, recipeContext, response).request.value.question;
      q != "" && !IsSpace(q[0]) && !IsSpace(q[|q| - 1])
  {
  }

  // -----------------------------------------------------------------------
  // Against the chat handler
  // -----------------------------------------------------------------------

  /** The handler request `JSON.stringify(payload)` becomes. */
  function Encode(p: ChatPayload): (req: Request)
    ensures BodyDoc(req.body).Success? && BodyDoc(req.body).value.Object?
    // The three keys of the payload arrive as given; no other key is sent.
    ensures var q := BodyDoc(req.body).value.payload;
      && q.videoDescription == Some(p.videoDescription)
      && q.question == Some(p.question)
      && q.chatHistory == Given(p.chatHistory)
      && q.additionalContext.Undefined?
      && q.path.None? && q.audioData.None? && q.fileName.None? && q.mimeType.None?
  {
    Request("", Text(Success(Object(Payload(None, Some(p.videoDescription), Some(p.question),
      Given(p.chatHistory), Undefined, None, 0, None, None)))))
  }

  /** `JSON.parse(response.responseBody)` of the handler's reply. */
  function Decode(reply: Reply<string, ()>): (r: Response)
    ensures Accepted(r) <==> reply.Ok? && reply.body != ""
  {
    match reply
    case Ok(answer) => Responded(true, Some(answer))
    case Err(_, _, _) => Responded(false, None)
  }

  /** A payload the panel sends always passes the handler's parameter
      check: the provider is called once, with the rendered history. */
  lemma PanelMeetsHandler(c: Panel, recipeContext: Option<string>, env: Env)
    requires !Blank(c.input)
    ensures var p := PayloadFor(recipeContext, c.messages, Trim(c.input));
      AiChat.Handle(Encode(p), env).trace
        == [ProviderCalled(Chat(ChatPrompt(p.videoDescription, Undefined, Render(HistoryOf(c.messages)), p.question)))]
  {
    var p := PayloadFor(recipeContext, c.messages, Trim(c.input));
    var payload := BodyDoc(Encode(p).body).value.payload;
    assert AiChat.ParseBody(Encode(p).body) == Success(Object(payload));
    assert payload.chatHistory == Given(HistoryOf(c.messages));
    AiChat.ValidRequest(Encode(p), env, payload);
  }

  /** An accepted response appends the question and then the answer. */
  lemma SendAccepted(c: Panel, recipeContext: Option<string>, answer: string)
    requires !Blank(c.input) && answer != ""
    ensures Send(c, recipeContext, Responded(true, Some(answer))).panel.messages
      == c.messages + [Message(Trim(c.input), true), Message(answer, false)]
  {
    var q := Trim(c.input);
    assert Accepted(Responded(true, Some(answer)));
    calc {
      Send(c, recipeContext, Responded(true, Some(answer))).panel.messages;
      (c.messages + [Message(q, true)]) + [Message(answer, false)];
      c.messages + [Message(q, true), Message(answer, false)];
    }
  }

  /** The handler answers the panel's payload with the provider's answer. */
  lemma HandlerAnswers(p: ChatPayload, env: Env)
    requires p.videoDescription != "" && p.question != "" && env.chat.Answered?
    ensures AiChat.Handle(Encode(p), env).reply == Ok(env.chat.answer)
  {
    var payload := BodyDoc(Encode(p).body).value.payload;
    assert AiChat.ParseBody(Encode(p).body) == Success(Object(payload));
    AiChat.ValidRequest(Encode(p), env, payload);
  }

  /** A non-empty answer from the provider is the bubble the panel shows,
      right after the question. */
  lemma AnswerShown(c: Panel, recipeContext: Option<string>, env: Env)
    requires !Blank(c.input) && env.chat.Answered? && env.chat.answer != ""
    ensures var p := PayloadFor(recipeContext, c.messages, Trim(c.input));
      Send(c, recipeContext, Decode(AiChat.Handle(Encode(p), env).reply)).panel.messages
        == c.messages + [Message(Trim(c.input), true), Message(env.chat.answer, false)]
  {
    var p := PayloadFor(recipeContext, c.messages, Trim(c.input));
    HandlerAnswers(p, env);
    SendAccepted(c, recipeContext, env.chat.answer);
  }
}

=== FILE: composite.dfy ===
/** The composite handler: optional transcription of an audio question,
    then a chat completion over the video description, the user's extra
    context and the chat history. Every failure is a thrown
    `{type, message}` caught at the top and answered with status 500. */
module Composite {
  import opened Base
  import opened Js
  import opened History
  import opened AudioFormat
  import opened Providers
  import opened Effects
  import opened Http
  import opened Invocation
  import opened Transcription

  /** `ErrorTypes`, plus the `'unknown'` reported for errors without a type. */
  datatype ErrorType = TranscriptionError | AiChatError | ValidationError | NetworkError | UnknownError {
    function Name(): string {
      match this
      case TranscriptionError => "transcription_error"
      case AiChatError => "ai_chat_error"
      case ValidationError => "validation_error"
      case NetworkError => "network_error"
      case UnknownError => "unknown"
    }
  }

  /** The `source` field of a success response. */
  datatype Source = AudioTranscription | TextInput {
    function Name(): string {
      match this
      case AudioTranscription => "audio_transcription"
      case TextInput => "text_input"
    }
  }

  /** A success body: the `/ping` text, or `{answer, success: true, source}`. */
  datatype Body = Pong | Answer(answer: string, source: Source)

  /** A thrown value: its `type` (absent for runtime errors) and `message`. */
  datatype Thrown = Thrown(kind: Option<ErrorType>, message: string)

  /** A stage's result together with the effects it performed. */
  datatype Attempt<+T> = Attempt(result: Result<T, Thrown>, trace: seq<Effect>)

  const MissingAudioMessage: string := "Missing required audio fields"
  const TooLargeMessage: string := "File too large (max 25MB)"
  const NoSpeechMessage: string := "No speech detected or audio unclear"
  const MissingFieldsMessage: string := "Missing required fields: videoDescription or question/audio"

  /** The runtime's message when the body parses to `null` and is destructured. */
  const NullBodyMessage: string := "Cannot destructure property 'videoDescription' of 'body' as it is null."

  function UnsupportedMessage(): string {
    "Unsupported format. Supported: " + Join(SupportedFormats, ", ")
  }

  /** What the body of `handleTranscription`'s `try` throws for each way
      the stage can fail, before the `catch` rewraps it. */
  function InnerError(o: Outcome): (e: Thrown)
    requires !o.Heard?
    // The three checks before the write throw typed validation errors ...
    ensures e.kind == Some(ValidationError) <==> o.Missing? || o.Oversized? || o.BadFormat?
    // ... an empty transcript is typed as a transcription error ...
    ensures e.kind == Some(TranscriptionError) <==> o.Silent?
    // ... and the file system's or provider's own error is untyped, its message kept.
    ensures e.kind.None? <==> o.WriteError? || o.ProviderError?
    ensures (o.WriteError? || o.ProviderError?) ==> e.message == o.message
  {
    match o
    case Missing => Thrown(Some(ValidationError), MissingAudioMessage)
    case Oversized => Thrown(Some(ValidationError), TooLargeMessage)
    case BadFormat => Thrown(Some(ValidationError), UnsupportedMessage())
    case WriteError(m) => Thrown(None, m)
    case ProviderError(m) => Thrown(None, m)
    case Silent => Thrown(Some(TranscriptionError), NoSpeechMessage)
  }

  /** `handleTranscription`: the stage, whose every failure the `catch`
      rethrows as a transcription error keeping only the message. */
  function HandleTranscription(p: Payload, env: Env): (r: Attempt<string>)
    ensures r.trace == Stage(p, env).trace
    ensures r.result.Success? <==> Stage(p, env).outcome.Heard?
    ensures r.result.Success? ==> r.result.value == Stage(p, env).outcome.text
    ensures r.result.Failure? ==>
      r.result.error == Thrown(Some(TranscriptionError), InnerError(Stage(p, env).outcome).message)
  {
    var s := Stage(p, env);
    match s.outcome
    case Heard(text) => Attempt(Success(text), s.trace)
    case _ => Attempt(Failure(Thrown(Some(TranscriptionError), InnerError(s.outcome).message)), s.trace)
  }

  /** The values handed to the composite prompt template. The defaults
      `chatHistory = []` and `additionalContext = ""` replace a missing
      field only: a `null` context is passed on as `null`, and a `null`
      history makes `map` throw before the chain is invoked. */
  function PromptFor(p: Payload, question: string): (r: Result<ChatPrompt, string>)
    requires Truthy(p.videoDescription)
    ensures r.Failure? <==> p.chatHistory.JsonNull?
    ensures r.Failure? ==> r.error == NullMapMessage
    ensures r.Success? ==>
      r.value.chatHistory == (if p.chatHistory.Given? then Render(p.chatHistory.value) else "")
    ensures r.Success? ==>
      r.value.additionalContext == (if p.additionalContext.Undefined? then Given("") else p.additionalContext)
    ensures r.Success? ==> r.value.videoDescription == p.videoDescription.value && r.value.question == question
  {
    match RenderField(p.chatHistory)
    case Failure(m) => Failure(m)
    case Success(history) =>
      Success(ChatPrompt(p.videoDescription.value, p.additionalContext.Defaulted(""), history, question))
  }

  /** `handleAIChat`: at most one call to the chat provider, whose failure,
      like the history's, is rethrown as a chat error. */
  function HandleAIChat(p: Payload, question: string, env: Env): (r: Attempt<string>)
    requires Truthy(p.videoDescription)
    // Only chat calls, at most one, made exactly when the history renders.
    ensures |r.trace| <= 1
    ensures forall i :: 0 <= i < |r.trace| ==> r.trace[i].ProviderCalled? && r.trace[i].call.Chat?
    ensures ChatCalled(r.trace) <==> !p.chatHistory.JsonNull?
    // The answer is the provider's; every failure leaves typed as a chat error.
    ensures r.result.Success? <==> !p.chatHistory.JsonNull? && env.chat.Answered?
    ensures r.result.Success? ==> r.result.value == env.chat.answer
    ensures r.result.Failure? ==> r.result.error.kind == Some(AiChatError)
    ensures p.chatHistory.JsonNull? ==> r.result == Failure(Thrown(Some(AiChatError), NullMapMessage))
  {
    match PromptFor(p, question)
    case Failure(m) => Attempt(Failure(Thrown(Some(AiChatError), m)), [])
    case Success(prompt) =>
      var trace := [ProviderCalled(Chat(prompt))];
      assert ChatCalled(trace) by { assert trace[0].ProviderCalled?; }
      match env.chat
      case Answered(a) => Attempt(Success(a), trace)
      case ChatFailed(m) => Attempt(Failure(Thrown(Some(AiChatError), m)), trace)
  }

  /** The outer `catch`: `{success: false, error: err.message,
      errorType: err.type || 'unknown'}` with status 500. */
  function Fail(e: Thrown, trace: seq<Effect>): (r: Run<Body, ErrorType>)
    ensures r.reply.Err? && r.reply.status == 500 && r.reply.message == e.message
    ensures r.reply.kind == (if e.kind.Some? then e.kind.value else UnknownError)
    ensures r.trace == trace
    // No type is invented: `unknown` stands exactly for an untyped error.
    ensures r.reply.kind == UnknownError <==> e.kind.None? || e.kind == Some(UnknownError)
    ensures r.reply.kind != UnknownError ==> e.kind == Some(r.reply.kind)
  {
    Run(Err(e.kind.GetOr(UnknownError), e.message, 500), trace)
  }

  /** The handler after the body was parsed to an object. */
  function Process(p: Payload, env: Env): (r: Run<Body, ErrorType>)
    ensures Disciplined(r.trace)
    ensures r.reply.Err? ==> r.reply.status == 500 && r.reply.kind != NetworkError
    ensures r.reply.Ok? ==> r.reply.body.Answer? && env.chat == Answered(r.reply.body.answer)
    ensures r.reply.Ok? ==>
      (r.reply.body.source == AudioTranscription <==> Truthy(p.audioData))
    ensures r.reply.Ok? ==> !p.chatHistory.JsonNull?
  {
    var t :=
      if HasAudio(p) then
        var h := HandleTranscription(p, env);
        Attempt(if h.result.Success? then Success(Some(h.result.value)) else Failure(h.result.error), h.trace)
      else Attempt(Success(p.question), []);
    assert Disciplined(t.trace) by {
      if !HasAudio(p) {
        assert Replay(NoTemp, []) == Some(NoTemp);
      }
    }
    match t.result
    case Failure(e) => Fail(e, t.trace)
    case Success(finalQuestion) =>
      if !Truthy(p.videoDescription) || !Truthy(finalQuestion) then
        Fail(Thrown(Some(ValidationError), MissingFieldsMessage), t.trace)
      else
        var c := HandleAIChat(p, finalQuestion.value, env);
        assert Disciplined(t.trace + c.trace) by {
          if c.trace == [] {
            assert t.trace + c.trace == t.trace;
          } else {
            assert c.trace == [ProviderCalled(Chat(c.trace[0].call.prompt))];
            ChatAfterDisciplined(t.trace, c.trace[0].call.prompt);
          }
        }
        match c.result
        case Failure(e) => Fail(e, t.trace + c.trace)
        case Success(answer) =>
          var source := if Truthy(p.audioData) then AudioTranscription else TextInput;
          Run(Ok(Answer(answer, source)), t.trace + c.trace)
  }

  /** The composite handler. */
  function Handle(req: Request, env: Env): (r: Run<Body, ErrorType>)
    // `/ping` answers "Pong" without reading the body or running any stage.
    ensures req.path == "/ping" ==> r == Run(Ok(Pong), [])
    // Every failure is reported with status 500; `network_error` never is.
    ensures r.reply.Err? ==> r.reply.status == 500 && r.reply.kind != NetworkError
    // The temporary file follows the lifecycle discipline on every path.
    ensures Disciplined(r.trace)
    // An answer is the provider's answer, and its source names audio
    // exactly when the body carried truthy audio data.
    ensures r.reply.Ok? && r.reply.body.Answer? ==>
      && env.chat == Answered(r.reply.body.answer)
      && BodyDoc(req.body).Success? && BodyDoc(req.body).value.Object?
      && (r.reply.body.source == AudioTranscription <==> Truthy(BodyDoc(req.body).value.payload.audioData))
      && !BodyDoc(req.body).value.payload.chatHistory.JsonNull?
  {
    if req.path == "/ping" then Run(Ok(Pong), [])
    else
      assert Replay(NoTemp, []) == Some(NoTemp);
      match BodyDoc(req.body)
      case Failure(m) => Fail(Thrown(None, m), [])
      case Success(Null) => Fail(Thrown(None, NullBodyMessage), [])
      case Success(Object(p)) => Process(p, env)
  }

  // -----------------------------------------------------------------------
  // Properties of the handler
  // -----------------------------------------------------------------------

  /** The request gets past `/ping` and its body is the object `p`. */
  predicate Reaches(req: Request, p: Payload) {
    req.path != "/ping" && BodyDoc(req.body) == Success(Object(p))
  }

  /** A body that does not parse fails with the parser's message, no type
      (`'unknown'`) and status 500, before anything else happens. */
  lemma ParseFailureIsUnknown(req: Request, env: Env)
    requires req.path != "/ping" && BodyDoc(req.body).Failure?
    ensures Handle(req, env) == Run(Err(UnknownError, BodyDoc(req.body).error, 500), [])
    ensures UnknownError.Name() == "unknown"
  {
  }

  /** Transcription runs exactly when `audioData`, `fileName` and
      `mimeType` are all truthy, and the speech provider is called exactly
      when, in addition, both checks passed and the write succeeded. */
  lemma TranscriptionRunsIffAudio(req: Request, p: Payload, env: Env)
    requires Reaches(req, p)
    ensures TempAssigned(Handle(req, env).trace) <==> HasAudio(p)
    ensures SpeechCalled(Handle(req, env).trace) <==> Validated(p) && env.writeError.None?
  {
    var r := Handle(req, env);
    var st := Stage(p, env);
    if HasAudio(p) {
      assert r.trace[0] == st.trace[0];
      if Stage(p, env).outcome.Heard? && Truthy(p.videoDescription) {
        var c := HandleAIChat(p, st.outcome.text, env);
        assert r.trace == st.trace + c.trace;
        SpeechCalledPrefix(st.trace, c.trace);
      } else {
        assert r.trace == st.trace;
      }
    } else if Truthy(p.videoDescription) && Truthy(p.question) {
      var c := HandleAIChat(p, p.question.value, env);
      assert r.trace == [] + c.trace;
      SpeechCalledPrefix([], c.trace);
    } else {
      assert r.trace == [];
    }
  }

  /** Appending chat calls neither adds nor removes speech calls. */
  lemma SpeechCalledPrefix(a: seq<Effect>, b: seq<Effect>)
    requires forall i :: 0 <= i < |b| ==> b[i].ProviderCalled? && b[i].call.Chat?
    ensures SpeechCalled(a + b) <==> SpeechCalled(a)
  {
    if SpeechCalled(a + b) {
      var i :| 0 <= i < |a + b| && (a + b)[i].ProviderCalled? && (a + b)[i].call.Speech?;
      assert i < |a|;
      assert a[i] == (a + b)[i];
    }
    if SpeechCalled(a) {
      var i :| 0 <= i < |a| && a[i].ProviderCalled? && a[i].call.Speech?;
      assert (a + b)[i] == a[i];
    }
  }

  /** With audio, a usable transcript replaces `question` in the prompt,
      whatever `question` held. */
  lemma TranscriptReplacesQuestion(req: Request, p: Payload, env: Env)
    requires Reaches(req, p) && HasAudio(p) && Truthy(p.videoDescription)
    requires Stage(p, env).outcome.Heard?
    ensures Handle(req, env).trace == Stage(p, env).trace + HandleAIChat(p, env.speech.text.value, env).trace
    ensures !p.chatHistory.JsonNull? ==>
      Handle(req, env).trace[|Stage(p, env).trace|]
        == ProviderCalled(Chat(PromptFor(p, env.speech.text.value).value))
  {
    StageOutcomes(p, env);
  }

  /** A decoded length above 25 MiB fails as a transcription error (the
      validation error thrown inside is rewrapped) with the size message,
      even when the format is also wrong; nothing is written and no
      provider is called. */
  lemma OversizeRejected(req: Request, p: Payload, env: Env)
    requires Reaches(req, p) && HasAudio(p) && !WithinLimit(p.decodedSize)
    ensures Handle(req, env).reply == Err(TranscriptionError, TooLargeMessage, 500)
    ensures InnerError(Oversized).kind == Some(ValidationError)
    ensures !Wrote(Handle(req, env).trace) && !SpeechCalled(Handle(req, env).trace)
    ensures !ChatCalled(Handle(req, env).trace)
  {
    StageOutcomes(p, env);
    assert Handle(req, env).trace == Stage(p, env).trace;
  }

  /** Within the size limit, an extension outside the allow-list fails as a
      transcription error listing the formats; nothing is written. */
  lemma UnsupportedRejected(req: Request, p: Payload, env: Env)
    requires Reaches(req, p) && HasAudio(p) && WithinLimit(p.decodedSize)
    requires !Supported(p.fileName.value)
    ensures Handle(req, env).reply == Err(TranscriptionError, UnsupportedMessage(), 500)
    ensures InnerError(BadFormat).kind == Some(ValidationError)
    ensures !Wrote(Handle(req, env).trace)
  {
    StageOutcomes(p, env);
  }

  /** With audio, the handler's effects begin with the stage's. */
  lemma StageTraceFirst(req: Request, p: Payload, env: Env)
    requires Reaches(req, p) && HasAudio(p)
    ensures |Stage(p, env).trace| <= |Handle(req, env).trace|
    ensures Handle(req, env).trace[..|Stage(p, env).trace|] == Stage(p, env).trace
  {
    var st := Stage(p, env);
    assert Handle(req, env) == Process(p, env);
    assert Handle(req, env).trace == st.trace || Handle(req, env).trace[..|st.trace|] == st.trace;
  }

  /** A file of exactly 25 MiB with a supported extension passes both
      checks and is written. */
  lemma ExactLimitWritten(req: Request, p: Payload, env: Env)
    requires Reaches(req, p) && HasAudio(p) && p.decodedSize == MaxFileSize
    requires Supported(p.fileName.value)
    ensures Wrote(Handle(req, env).trace)
  {
    var st := Stage(p, env);
    assert Validated(p);
    assert Wrote(st.trace);
    var i :| 0 <= i < |st.trace| && st.trace[i].Written?;
    StageTraceFirst(req, p, env);
    assert Handle(req, env).trace[i] == Handle(req, env).trace[..|st.trace|][i];
  }

  /** An empty or white-space transcript, a failed write and a failed
      provider call all surface as transcription errors, the latter two
      with the thrown message. */
  lemma TranscriptionFailuresRewrapped(req: Request, p: Payload, env: Env)
    requires Reaches(req, p) && Validated(p)
    ensures env.writeError.Some? ==>
      Handle(req, env).reply == Err(TranscriptionError, env.writeError.value, 500)
    ensures env.writeError.None? && env.speech.SpeechFailed? ==>
      Handle(req, env).reply == Err(TranscriptionError, env.speech.message, 500)
    ensures env.writeError.None? && env.speech.Transcribed? && !Usable(env.speech.text) ==>
      Handle(req, env).reply == Err(TranscriptionError, NoSpeechMessage, 500)
  {
    StageOutcomes(p, env);
  }

  /** The required-field check comes after transcription: a missing video
      description still lets the transcription run, then fails as a
      validation error without calling the chat provider. */
  lemma ValidationAfterTranscription(req: Request, p: Payload, env: Env)
    requires Reaches(req, p) && HasAudio(p) && !Truthy(p.videoDescription)
    requires Stage(p, env).outcome.Heard?
    ensures SpeechCalled(Handle(req, env).trace)
    ensures Handle(req, env).reply == Err(ValidationError, MissingFieldsMessage, 500)
    ensures Handle(req, env).trace == Stage(p, env).trace
  {
    StageOutcomes(p, env);
  }

  /** Without a question and without the audio trio, the request fails as a
      validation error before any effect. */
  lemma MissingQuestionAndAudio(req: Request, p: Payload, env: Env)
    requires Reaches(req, p) && !HasAudio(p) && !Truthy(p.question)
    ensures Handle(req, env) == Run(Err(ValidationError, MissingFieldsMessage, 500), [])
  {
  }

  /** A text request with a description and a question makes exactly one
      chat call, whose prompt carries the rendered history (empty when the
      field is missing) and the user context (`""` when missing, `null`
      passed on); its answer or failure is the reply. A `null` history
      fails as a chat error before any call. */
  lemma TextRequestAnswered(req: Request, p: Payload, env: Env)
    requires Reaches(req, p) && !HasAudio(p)
    requires Truthy(p.videoDescription) && Truthy(p.question)
    ensures p.chatHistory.JsonNull? ==> Handle(req, env) == Run(Err(AiChatError, NullMapMessage, 500), [])
    ensures !p.chatHistory.JsonNull? ==>
      var prompt := ChatPrompt(p.videoDescription.value, p.additionalContext.Defaulted(""),
                               if p.chatHistory.Given? then Render(p.chatHistory.value) else "",
                               p.question.value);
      Handle(req, env).trace == [ProviderCalled(Chat(prompt))]
    ensures !p.chatHistory.JsonNull? && env.chat.Answered? ==>
      Handle(req, env).reply ==
        Ok(Answer(env.chat.answer, if Truthy(p.audioData) then AudioTranscription else TextInput))
    ensures !p.chatHistory.JsonNull? && env.chat.ChatFailed? ==>
      Handle(req, env).reply == Err(AiChatError, env.chat.message, 500)
  {
  }

  /** `source` follows `audioData` alone: truthy audio data without a file
      name skips transcription, answers the typed question, and still
      reports an audio source. */
  lemma AudioSourceWithoutTranscription(req: Request, p: Payload, env: Env)
    requires Reaches(req, p) && Truthy(p.audioData) && !Truthy(p.fileName)
    requires Truthy(p.videoDescription) && Truthy(p.question) && env.chat.Answered?
    ensures !p.chatHistory.JsonNull? ==> Handle(req, env).reply == Ok(Answer(env.chat.answer, AudioTranscription))
    ensures !TempAssigned(Handle(req, env).trace)
  {
    TranscriptionRunsIffAudio(req, p, env);
  }

  /** Every temporary path the handler assigns is followed by an attempt
      to unlink it. */
  lemma CleanupOnEveryExit(req: Request, env: Env, i: nat)
    requires i < |Handle(req, env).trace| && Handle(req, env).trace[i].TempCreated?
    ensures var t := Handle(req, env).trace;
      exists j :: i < j < |t| && t[j].Unlinked? && t[j].path == t[i].path
  {
    CleanupFollowsAssignment(Handle(req, env).trace, i);
  }

  /** Whether the unlink succeeds never changes the reply. */
  lemma UnlinkFailureSwallowed(req: Request, env: Env, ok: bool)
    ensures Handle(req, env.(unlinkOk := ok)).reply == Handle(req, env).reply
  {
    if req.path != "/ping" && BodyDoc(req.body).Success? && BodyDoc(req.body).value.Object? {
      ProcessIgnoresUnlink(BodyDoc(req.body).value.payload, env, ok);
    }
  }

  lemma ProcessIgnoresUnlink(p: Payload, env: Env, ok: bool)
    ensures Process(p, env.(unlinkOk := ok)).reply == Process(p, env).reply
  {
    var env' := env.(unlinkOk := ok);
    if HasAudio(p) {
      StageIgnoresUnlink(p, env, ok);
      assert HandleTranscription(p, env').result == HandleTranscription(p, env).result;
    }
    assert env'.chat == env.chat;
  }
}

=== FILE: effects.dfy ===
/** The observable effects of one handler invocation on the temporary
    audio file and on the providers, and the discipline they must follow:
    a temporary path is named at most once, written only while named,
    read by the speech provider only once written, released by an
    unlink attempt on every exit, and the chat provider is never called
    while a temporary path is held. */
module Effects {
  import opened Base
  import opened Providers

  datatype ProviderCall = Speech(path: string) | Chat(prompt: ChatPrompt)

  datatype Effect =
    | TempCreated(path: string)          // `tempPath` assigned
    | Written(path: string, ok: bool)    // `writeFile` attempted; `ok` false when it threw
    | ProviderCalled(call: ProviderCall)
    | Unlinked(path: string, ok: bool)   // `unlink` attempted; `ok` false when it threw (swallowed)

  /** Where the invocation stands with respect to its temporary file. */
  datatype FileState = NoTemp | Named(path: string) | Stored(path: string) | Released {
    /** A temporary path is assigned and not yet released. */
    predicate Holds() {
      Named? || Stored?
    }
  }

  /** One step of the lifecycle; `None` when the effect is out of order. */
  function Step(s: FileState, e: Effect): Option<FileState> {
    match e
    case TempCreated(p) => if s.NoTemp? then Some(Named(p)) else None
    case Written(p, ok) => if s == Named(p) then Some(if ok then Stored(p) else s) else None
    case ProviderCalled(Speech(p)) => if s == Stored(p) then Some(s) else None
    case ProviderCalled(Chat(_)) => if s.Holds() then None else Some(s)
    case Unlinked(p, _) => if s == Named(p) || s == Stored(p) then Some(Released) else None
  }

  /** Replays a trace from a state; `None` as soon as a step is out of order. */
  function Replay(s: FileState, t: seq<Effect>): Option<FileState>
    decreases |t|
  {
    if |t| == 0 then Some(s)
    else
      match Step(s, t[0])
      case None => None
      case Some(s') => Replay(s', t[1..])
  }

  /** The trace of a whole invocation keeps the discipline and ends with no
      temporary path held. */
  predicate Disciplined(t: seq<Effect>) {
    var f := Replay(NoTemp, t);
    f.Some? && !f.value.Holds()
  }

  /** Some temporary path was assigned. */
  predicate TempAssigned(t: seq<Effect>) {
    exists i :: 0 <= i < |t| && t[i].TempCreated?
  }

  /** A write of the temporary file was attempted. */
  predicate Wrote(t: seq<Effect>) {
    exists i :: 0 <= i < |t| && t[i].Written?
  }

  /** The speech provider was called. */
  predicate SpeechCalled(t: seq<Effect>) {
    exists i :: 0 <= i < |t| && t[i].ProviderCalled? && t[i].call.Speech?
  }

  /** The chat provider was called. */
  predicate ChatCalled(t: seq<Effect>) {
    exists i :: 0 <= i < |t| && t[i].ProviderCalled? && t[i].call.Chat?
  }

  /** Replaying a concatenation replays the second part from where the
      first part left off. */
  lemma {:induction false} ReplayAppend(s: FileState, a: seq<Effect>, b: seq<Effect>)
    ensures Replay(s, a + b) ==
      match Replay(s, a)
      case None => None
      case Some(m) => Replay(m, b)
    decreases |a|
  {
    if |a| > 0 {
      assert (a + b)[0] == a[0] && (a + b)[1..] == a[1..] + b;
      match Step(s, a[0])
      case None =>
      case Some(s') => ReplayAppend(s', a[1..], b);
    } else {
      assert a + b == b;
    }
  }

  /** A chat call after a disciplined trace keeps it disciplined. */
  lemma ChatAfterDisciplined(t: seq<Effect>, prompt: ChatPrompt)
    requires Disciplined(t)
    ensures Disciplined(t + [ProviderCalled(Chat(prompt))])
  {
    ReplayAppend(NoTemp, t, [ProviderCalled(Chat(prompt))]);
  }

  /** From a state holding `p`, a replay that ends holding nothing contains
      an unlink attempt of `p`. */
  lemma {:induction false} ReleaseNeedsUnlink(s: FileState, t: seq<Effect>)
    requires s.Holds()
    requires Replay(s, t).Some? && !Replay(s, t).value.Holds()
    ensures exists j :: 0 <= j < |t| && t[j].Unlinked? && t[j].path == s.path
    decreases |t|
  {
    var s' := Step(s, t[0]).value;
    if s'.Holds() {
      ReleaseNeedsUnlink(s', t[1..]);
      var j :| 0 <= j < |t[1..]| && t[1..][j].Unlinked? && t[1..][j].path == s'.path;
      assert t[j + 1] == t[1..][j];
    } else {
      assert t[0].Unlinked? && t[0].path == s.path;
    }
  }

  /** In a disciplined trace every assigned temporary path is followed by
      an attempt to unlink it. */
  lemma CleanupFollowsAssignment(t: seq<Effect>, i: nat)
    requires Disciplined(t)
    requires i < |t| && t[i].TempCreated?
    ensures exists j :: i < j < |t| && t[j].Unlinked? && t[j].path == t[i].path
  {
    ReplayAppend(NoTemp, t[..i], t[i..]);
    assert t[..i] + t[i..] == t;
    var m := Replay(NoTemp, t[..i]).value;
    assert m.NoTemp?;
    var rest := t[i + 1..];
    assert t[i..][1..] == rest;
    ReleaseNeedsUnlink(Named(t[i].path), rest);
    var j :| 0 <= j < |rest| && rest[j].Unlinked? && rest[j].path == t[i].path;
    assert t[i + 1 + j] == rest[j];
  }
}

=== FILE: filter_modal.dfy ===
/** The filter screen: it edits private copies of the store's cuisine and
    difficulty selections and writes them back only on Apply. */
module FilterModal {
  import opened Store

  /** `xs.filter(x => x !== v)`. */
  function Without<T(==)>(xs: seq<T>, v: T): (r: seq<T>)
    ensures v !in r
    ensures forall i :: 0 <= i < |r| ==> r[i] in xs
    ensures forall i :: 0 <= i < |xs| && xs[i] != v ==> xs[i] in r
    ensures |r| <= |xs|
    ensures v !in xs ==> r == xs
    decreases |xs|
  {
    if |xs| == 0 then []
    else if xs[0] == v then Without(xs[1..], v)
    else [xs[0]] + Without(xs[1..], v)
  }

  /** The value occurs at most once. */
  predicate NoDup<T(==)>(xs: seq<T>) {
    forall i, j :: 0 <= i < j < |xs| ==> xs[i] != xs[j]
  }

  /** The toggle behind both chip groups: a present value is removed (every
      occurrence), an absent one appended at the end. */
  function Toggle<T(==)>(xs: seq<T>, v: T): (r: seq<T>)
    // The toggled value flips membership ...
    ensures v in r <==> v !in xs
    // ... every other value keeps its membership and its relative order ...
    ensures Without(r, v) == Without(xs, v)
    // ... and a newly added value goes last.
    ensures v !in xs ==> r == xs + [v]
  {
    if v in xs then Without(xs, v)
    else WithoutSnoc(xs, v); xs + [v]
  }

  /** Appending the removed value is invisible to `Without`. */
  lemma {:induction false} WithoutSnoc<T>(xs: seq<T>, v: T)
    ensures Without(xs + [v], v) == Without(xs, v)
    decreases |xs|
  {
    if |xs| == 0 {
      assert xs + [v] == [v];
      assert [v][1..] == [];
    } else {
      assert (xs + [v])[1..] == xs[1..] + [v];
      WithoutSnoc(xs[1..], v);
    }
  }

  /** `Without` keeps a duplicate-free list duplicate-free. */
  lemma {:induction false} WithoutNoDup<T>(xs: seq<T>, v: T)
    requires NoDup(xs)
    ensures NoDup(Without(xs, v))
    decreases |xs|
  {
    if |xs| > 0 {
      assert NoDup(xs[1..]) by {
        forall i, j | 0 <= i < j < |xs[1..]| ensures xs[1..][i] != xs[1..][j] {
          assert xs[1..][i] == xs[i + 1] && xs[1..][j] == xs[j + 1];
        }
      }
      WithoutNoDup(xs[1..], v);
      if xs[0] != v {
        var w := Without(xs[1..], v);
        assert xs[0] !in xs[1..] by {
          forall k | 0 <= k < |xs[1..]| ensures xs[1..][k] != xs[0] {
            assert xs[1..][k] == xs[k + 1];
          }
        }
        assert xs[0] !in w;
        forall i, j | 0 <= i < j < |[xs[0]] + w| ensures ([xs[0]] + w)[i] != ([xs[0]] + w)[j] {
          if i == 0 {
            assert ([xs[0]] + w)[j] == w[j - 1];
          } else {
            assert ([xs[0]] + w)[i] == w[i - 1] && ([xs[0]] + w)[j] == w[j - 1];
          }
        }
      }
    }
  }

  /** Toggling keeps the selection free of duplicates. */
  lemma ToggleNoDup<T>(xs: seq<T>, v: T)
    requires NoDup(xs)
    ensures NoDup(Toggle(xs, v))
  {
    if v in xs {
      WithoutNoDup(xs, v);
    } else {
      var r := xs + [v];
      forall i, j | 0 <= i < j < |r| ensures r[i] != r[j] {
        if j == |xs| {
          assert r[i] == xs[i];
        }
      }
    }
  }

  /** On a duplicate-free list, toggling twice restores the list when the
      value was absent or already last ... */
  lemma ToggleTwice<T>(xs: seq<T>, v: T)
    requires NoDup(xs)
    requires v !in xs || xs[|xs| - 1] == v
    ensures Toggle(Toggle(xs, v), v) == xs
  {
    if v in xs {
      var init := xs[..|xs| - 1];
      assert xs == init + [v];
      assert v !in init by {
        forall k | 0 <= k < |init| ensures init[k] != v {
          assert init[k] == xs[k];
        }
      }
      WithoutSnoc(init, v);
    }
  }

  /** ... but a present value that is not last comes back at the end:
      the same selection, in another order. */
  lemma ToggleTwiceReorders()
    ensures Toggle(Toggle([Italian, Mexican], Italian), Italian) == [Mexican, Italian]
  {
    assert Without([Italian, Mexican], Italian) == [Mexican] by {
      assert [Italian, Mexican][1..] == [Mexican];
      assert [Mexican][1..] == [];
    }
  }

  /** Toggling twice never changes which values are selected. */
  lemma ToggleTwiceSameMembers<T>(xs: seq<T>, v: T, u: T)
    ensures u in Toggle(Toggle(xs, v), v) <==> u in xs
  {
  }

  // -----------------------------------------------------------------------
  // The screen
  // -----------------------------------------------------------------------

  /** The screen's private copies, and whether it is shown. */
  datatype Modal = Modal(visible: bool, tempCuisines: seq<Cuisine>, tempDifficulties: seq<Difficulty>)

  /** The store together with the filter screen. */
  datatype Screen = Screen(store: AppState, modal: Modal)

  /** Opening the screen: the sync effect copies the store's selections. */
  function Open(s: Screen): (r: Screen)
    ensures r.store == s.store && r.modal.visible
    ensures r.modal.tempCuisines == s.store.selectedCuisines
    ensures r.modal.tempDifficulties == s.store.selectedDifficulties
  {
    s.(modal := Modal(true, s.store.selectedCuisines, s.store.selectedDifficulties))
  }

  function ToggleCuisine(s: Screen, c: Cuisine): (r: Screen)
    ensures r.store == s.store && r.modal.tempDifficulties == s.modal.tempDifficulties
    ensures c in r.modal.tempCuisines <==> c !in s.modal.tempCuisines
    // Only that cuisine changes: the other drafted ones stay, in order, and
    // the screen stays as it was.
    ensures Without(r.modal.tempCuisines, c) == Without(s.modal.tempCuisines, c)
    ensures r.modal.visible == s.modal.visible
  {
    s.(modal := s.modal.(tempCuisines := Toggle(s.modal.tempCuisines, c)))
  }

  function ToggleDifficulty(s: Screen, d: Difficulty): (r: Screen)
    ensures r.store == s.store && r.modal.tempCuisines == s.modal.tempCuisines
    ensures d in r.modal.tempDifficulties <==> d !in s.modal.tempDifficulties
    ensures Without(r.modal.tempDifficulties, d) == Without(s.modal.tempDifficulties, d)
    ensures r.modal.visible == s.modal.visible
  {
    s.(modal := s.modal.(tempDifficulties := Toggle(s.modal.tempDifficulties, d)))
  }

  /** Apply: both private lists go to the store, then the screen closes. */
  function Apply(s: Screen): (r: Screen)
    ensures r.store.selectedCuisines == s.modal.tempCuisines
    ensures r.store.selectedDifficulties == s.modal.tempDifficulties
    ensures r.store.(selectedCuisines := s.store.selectedCuisines,
                     selectedDifficulties := s.store.selectedDifficulties) == s.store
    ensures !r.modal.visible
  {
    Screen(SetFilters(s.store, s.modal.tempCuisines, s.modal.tempDifficulties), s.modal.(visible := false))
  }

  /** Cancel closes the screen and drops the private edits. */
  function Cancel(s: Screen): (r: Screen)
    ensures r.store == s.store && !r.modal.visible
  {
    s.(modal := s.modal.(visible := false))
  }

  /** Clear All empties both store selections and both private lists,
      and keeps the screen open. */
  function Clear(s: Screen): (r: Screen)
    ensures r.store == ClearFilters(s.store)
    ensures r.modal.tempCuisines == [] && r.modal.tempDifficulties == []
    ensures r.modal.visible == s.modal.visible
  {
    Screen(ClearFilters(s.store), s.modal.(tempCuisines := [], tempDifficulties := []))
  }

  /** The user's edits on an open screen: toggles only. */
  datatype Edit = CuisineChip(c: Cuisine) | DifficultyChip(d: Difficulty)

  function Edits(s: Screen, es: seq<Edit>): (r: Screen)
    ensures r.store == s.store && r.modal.visible == s.modal.visible
    decreases |es|
  {
    if |es| == 0 then s
    else
      var s' := match es[0]
        case CuisineChip(c) => ToggleCuisine(s, c)
        case DifficultyChip(d) => ToggleDifficulty(s, d);
      Edits(s', es[1..])
  }

  /** Whatever the edits, cancelling leaves the store as it was. */
  lemma CancelKeepsStore(s: Screen, es: seq<Edit>)
    ensures Cancel(Edits(Open(s), es)).store == s.store
  {
  }

  /** Opening and applying without edits leaves the store as it was. */
  lemma ApplyUneditedKeepsStore(s: Screen)
    ensures Apply(Open(s)).store == s.store
  {
  }

  /** Toggling a cuisine and applying selects it exactly when it was not
      selected before, and leaves the difficulties alone. */
  lemma ToggleThenApply(s: Screen, c: Cuisine)
    ensures var r := Apply(ToggleCuisine(Open(s), c));
      && (c in r.store.selectedCuisines <==> c !in s.store.selectedCuisines)
      && r.store.selectedDifficulties == s.store.selectedDifficulties
  {
  }
}

=== FILE: history.dfy ===
/** Chat history as the serverless handlers flatten it into the prompt:
    one `role: content` line per turn, joined by newlines, oldest first. */
module History {
  import opened Base
  import opened Js

  /** One prior turn of the conversation (`{role, content}`). */
  datatype Turn = Turn(role: string, content: string)

  /** The template literal `${msg.role}: ${msg.content}`. */
  function Line(t: Turn): string {
    t.role + ": " + t.content
  }

  /** `chatHistory.map(...)`: one line per turn, in the same order. */
  function Lines(h: seq<Turn>): (r: seq<string>)
    ensures |r| == |h|
    ensures forall i :: 0 <= i < |h| ==> r[i] == Line(h[i])
  {
    seq(|h|, i requires 0 <= i < |h| => Line(h[i]))
  }

  /** `chatHistory.map(...).join("\n")`: empty exactly for the empty
      history, since every line holds at least the ": " separator, and
      otherwise led by the oldest turn's line. */
  function Render(h: seq<Turn>): (r: string)
    ensures r == "" <==> h == []
    ensures h != [] ==> Line(h[0]) <= r
  {
    Join(Lines(h), "\n")
  }

  /** The runtime's message for `null.map(...)`. */
  const NullMapMessage: string := "Cannot read properties of null (reading 'map')"

  /** The history field after its `= []` default, rendered: a missing
      field renders as the empty history, while `null` survives the
      default and makes `map` throw. */
  function RenderField(history: Field<seq<Turn>>): (r: Result<string, string>)
    ensures r.Failure? <==> history.JsonNull?
    ensures r.Failure? ==> r.error == NullMapMessage
    ensures history.Undefined? ==> r == Success("")
    ensures history.Given? ==> r == Success(Render(history.value))
  {
    match history.Defaulted([])
    case Given(h) => Success(Render(h))
    case _ => Failure(NullMapMessage)
  }

  /** The empty history renders as the empty string, a single turn as its
      own line. */
  lemma RenderShort(t: Turn)
    ensures Render([]) == ""
    ensures Render([t]) == Line(t)
  {
    assert Lines([t]) == [Line(t)];
  }

  /** The worked example: a user turn then an AI turn. */
  lemma RenderExample()
    ensures Render([Turn("User", "hi"), Turn("AI", "hello")]) == "User: hi\nAI: hello"
  {
    var h := [Turn("User", "hi"), Turn("AI", "hello")];
    var ls := Lines(h);
    assert ls[0] == "User: hi" && ls[1] == "AI: hello";
    assert ls[1..] == ["AI: hello"];
    assert Render(h) == ls[0] + "\n" + ls[1];
  }

  /** Order is preserved: the rendering of a concatenation is the
      rendering of the older part, a newline, then the newer part. */
  lemma RenderAppend(older: seq<Turn>, newer: seq<Turn>)
    requires |older| > 0 && |newer| > 0
    ensures Render(older + newer) == Render(older) + "\n" + Render(newer)
  {
    assert Lines(older + newer) == Lines(older) + Lines(newer);
    JoinAppend(Lines(older), Lines(newer), "\n");
  }

  /** When no turn holds a line break, splitting the rendering on "\n"
      recovers exactly one line per turn, in order. */
  lemma RenderRoundTrip(h: seq<Turn>)
    requires |h| > 0
    requires forall i :: 0 <= i < |h| ==> '\n' !in Line(h[i])
    ensures Split(Render(h), '\n') == Lines(h)
  {
    SplitJoin(Lines(h), '\n');
  }
}

=== FILE: http.dfy ===
/** Handler replies: a body sent with status 200, or an error of some kind
    with a message and a status code; and a reply together with the
    effects that produced it. */
module Http {
  import opened Effects

  datatype Reply<+T, +K> = Ok(body: T) | Err(kind: K, message: string, status: int) {
    /** The HTTP status the platform sends. */
    function Status(): int {
      if Ok? then 200 else status
    }
  }

  /** One invocation: its reply and, in order, the effects it performed. */
  datatype Run<+T, +K> = Run(reply: Reply<T, K>, trace: seq<Effect>)
}

=== FILE: invocation.dfy ===
/** What a handler invocation receives: the request, and the environment
    standing in for process configuration, the clock, the file system and
    the providers' answers. */
module Invocation {
  import opened Base
  import opened Js
  import opened History
  import opened Providers

  /** The fields any of the three handlers reads from a JSON body. Every
      field may be absent; the two fields that reach a use other than a
      truthiness test keep `null` apart from `undefined`. `decodedSize` is the byte length of
      `Buffer.from(audioData, 'base64')`. */
  datatype Payload = Payload(
    path: Option<string>,
    videoDescription: Option<string>,
    question: Option<string>,
    chatHistory: Field<seq<Turn>>,
    additionalContext: Field<string>,
    audioData: Option<string>,
    decodedSize: nat,
    fileName: Option<string>,
    mimeType: Option<string>)

  /** A parsed JSON document: `null`, or an object. */
  datatype Doc = Null | Object(payload: Payload)

  /** The request body as the platform hands it over: a string (with what
      `JSON.parse` makes of it, or the message of the error it throws), or
      a value the platform already parsed. */
  datatype RawBody = Text(json: Result<Doc, string>) | Parsed(doc: Doc)

  datatype Request = Request(path: string, body: RawBody)

  /** Everything outside the request: the configured API key, the temporary
      directory, the clock reading used in temporary names, and the outcome
      of each I/O or provider call should it be made. */
  datatype Env = Env(
    openAiKey: Option<string>,
    tmpDir: string,
    stamp: string,
    writeError: Option<string>,
    speech: SpeechOutcome,
    chat: ChatOutcome,
    unlinkOk: bool)

  /** `typeof req.body === 'string' ? JSON.parse(req.body) : req.body`. */
  function BodyDoc(body: RawBody): (r: Result<Doc, string>)
    ensures body.Parsed? ==> r == Success(body.doc)
    ensures body.Text? ==> r == body.json
  {
    match body
    case Text(json) => json
    case Parsed(doc) => Success(doc)
  }

  /** `audioData && fileName && mimeType`. */
  predicate HasAudio(p: Payload) {
    Truthy(p.audioData) && Truthy(p.fileName) && Truthy(p.mimeType)
  }
}

=== FILE: js.dfy ===
/** The JavaScript value and string operations the handlers and components
    rely on: truthiness, `||` defaults, `trim`, `toLowerCase`, `split`,
    `join`, `pop` and `includes`, on strings as sequences of characters. */
module Js {
  import opened Base

  /** JavaScript truthiness of a field that holds a string when present:
      `undefined`, `null` and `""` are falsy. */
  predicate Truthy(s: Option<string>) {
    s.Some? && s.value != ""
  }

  /** `s || fallback` on a string field. */
  function Or(s: Option<string>, fallback: string): (r: string)
    ensures Truthy(s) ==> r == s.value
    ensures !Truthy(s) ==> r == fallback
  {
    if Truthy(s) then s.value else fallback
  }

  // ---------------------------------------------------------------------
  // String.prototype.trim
  // ---------------------------------------------------------------------

  /** The characters `trim` removes: WhiteSpace and LineTerminator of the
      ECMAScript language specification (section 12.2 and 12.3 of
      ECMA-262). */
  predicate IsSpace(c: char) {
    || c == '\t' || c == '\n' || c == '\U{000B}' || c == '\U{000C}' || c == '\r'
    || c == ' ' || c == '\U{00A0}' || c == '\U{1680}'
    || ('\U{2000}' <= c <= '\U{200A}')
    || c == '\U{2028}' || c == '\U{2029}' || c == '\U{202F}' || c == '\U{205F}'
    || c == '\U{3000}' || c == '\U{FEFF}'
  }

  /** Every character of `s` is white space (`s.trim() === ''`). */
  predicate Blank(s: string) {
    forall i :: 0 <= i < |s| ==> IsSpace(s[i])
  }

  /** `s` with leading white space removed. */
  function TrimStart(s: string): (r: string)
    ensures |r| <= |s| && r == s[|s| - |r|..]
    ensures Blank(s[..|s| - |r|])
    ensures r == "" || !IsSpace(r[0])
    decreases |s|
  {
    if |s| > 0 && IsSpace(s[0]) then
      var r := TrimStart(s[1..]);
      assert s[..|s| - |r|] == [s[0]] + s[1..][..|s| - 1 - |r|];
      r
    else s
  }

  /** `s` with trailing white space removed. */
  function TrimEnd(s: string): (r: string)
    ensures |r| <= |s| && r == s[..|r|]
    ensures Blank(s[|r|..])
    ensures r == "" || !IsSpace(r[|r| - 1])
    decreases |s|
  {
    if |s| > 0 && IsSpace(s[|s| - 1]) then
      var r := TrimEnd(s[..|s| - 1]);
      assert s[|r|..] == s[..|s| - 1][|r|..] + [s[|s| - 1]];
      r
    else s
  }

  /** `s.trim()`: the infix of `s` left once blank runs are cut from both
      ends. It is empty exactly when `s` is blank, and otherwise neither
      starts nor ends with white space. */
  function Trim(s: string): (r: string)
    ensures exists k :: 0 <= k && k + |r| <= |s| && r == s[k..k + |r|]
                        && Blank(s[..k]) && Blank(s[k + |r|..])
    ensures r == "" <==> Blank(s)
    ensures r == "" || (!IsSpace(r[0]) && !IsSpace(r[|r| - 1]))
    ensures |r| <= |s|
  {
    TrimmedInfix(s, TrimStart(s), TrimEnd(TrimStart(s)));
    TrimEnd(TrimStart(s))
  }

  /** A blank-free cut of a blank-free cut: trimming the front and then
      the back of `s` leaves an infix of `s` with blank runs on each side. */
  lemma TrimmedInfix(s: string, t: string, r: string)
    requires |t| <= |s| && t == s[|s| - |t|..] && Blank(s[..|s| - |t|])
    requires t == "" || !IsSpace(t[0])
    requires |r| <= |t| && r == t[..|r|] && Blank(t[|r|..])
    requires r == "" || !IsSpace(r[|r| - 1])
    ensures exists k :: 0 <= k && k + |r| <= |s| && r == s[k..k + |r|]
                        && Blank(s[..k]) && Blank(s[k + |r|..])
    ensures r == "" <==> Blank(s)
    ensures r == "" || (!IsSpace(r[0]) && !IsSpace(r[|r| - 1]))
    ensures |r| <= |s|
  {
    var k := |s| - |t|;
    assert t[..|r|] == s[k..k + |r|];
    assert t[|r|..] == s[k + |r|..];
    assert 0 <= k && k + |r| <= |s| && r == s[k..k + |r|] && Blank(s[..k]) && Blank(s[k + |r|..]);
    if r == "" {
      assert Blank(t);
      assert s == s[..k] + t;
    } else {
      assert r[0] == t[0];
      assert r[0] == s[k];
    }
  }

  // ---------------------------------------------------------------------
  // String.prototype.toLowerCase, restricted to ASCII letters
  // ---------------------------------------------------------------------

  /** Lower-cases an ASCII capital letter; every other character is kept. */
  function LowerChar(c: char): char {
    if 'A' <= c <= 'Z' then (c as int + 32) as char else c
  }

  /** `s.toLowerCase()` on ASCII letters. */
  function LowerAscii(s: string): (r: string)
    ensures |r| == |s|
    ensures forall i :: 0 <= i < |s| ==> r[i] == LowerChar(s[i])
  {
    seq(|s|, i requires 0 <= i < |s| => LowerChar(s[i]))
  }

  /** A string without capital ASCII letters is its own lower-case form. */
  lemma LowerAsciiFixed(s: string)
    requires forall i :: 0 <= i < |s| ==> !('A' <= s[i] <= 'Z')
    ensures LowerAscii(s) == s
  {
  }

  // ---------------------------------------------------------------------
  // String.prototype.split with a one-character separator, and join
  // ---------------------------------------------------------------------

  /** `s.split(sep)`: the pieces between separators, always at least one
      (`"".split(sep)` is `[""]`), none holding the separator. */
  function Split(s: string, sep: char): (r: seq<string>)
    ensures |r| > 0
    ensures forall i :: 0 <= i < |r| ==> sep !in r[i]
    decreases |s|
  {
    if |s| == 0 then [""]
    else if s[0] == sep then [""] + Split(s[1..], sep)
    else
      var rest := Split(s[1..], sep);
      [[s[0]] + rest[0]] + rest[1..]
  }

  /** `xs.join(sep)`. */
  function Join(xs: seq<string>, sep: string): string
    decreases |xs|
  {
    if |xs| == 0 then ""
    else if |xs| == 1 then xs[0]
    else xs[0] + sep + Join(xs[1..], sep)
  }

  /** `xs[xs.length - 1]`, as `Array.prototype.pop` returns it. */
  function Last<T>(xs: seq<T>): T
    requires |xs| > 0
  {
    xs[|xs| - 1]
  }

  /** Reference definition of the text after the last `sep` (all of `s`
      when `sep` does not occur): the longest suffix free of `sep`. */
  function AfterLast(s: string, sep: char): (r: string)
    ensures |r| <= |s| && r == s[|s| - |r|..]
    ensures sep !in r
    ensures |r| < |s| ==> s[|s| - |r| - 1] == sep
    decreases |s|
  {
    if |s| == 0 then ""
    else if s[|s| - 1] == sep then ""
    else
      var init := s[..|s| - 1];
      var r := AfterLast(init, sep);
      assert s[|s| - |r| - 1..] == init[|init| - |r|..] + [s[|s| - 1]];
      assert |r| < |init| ==> s[|s| - |r| - 2] == init[|init| - |r| - 1];
      r + [s[|s| - 1]]
  }

  /** The text after the last `sep` is the only separator-free suffix that
      is either all of `s` or preceded by a separator. */
  lemma AfterLastUnique(s: string, sep: char, t: string)
    requires |t| <= |s| && t == s[|s| - |t|..]
    requires sep !in t
    requires |t| == |s| || s[|s| - |t| - 1] == sep
    ensures AfterLast(s, sep) == t
  {
  }

  /** A piece free of the separator splits to itself. */
  lemma {:induction false} SplitWithoutSep(a: string, sep: char)
    requires sep !in a
    ensures Split(a, sep) == [a]
    decreases |a|
  {
    if |a| > 0 {
      SplitWithoutSep(a[1..], sep);
      assert [a[0]] + a[1..] == a;
    }
  }

  /** Splitting distributes over a separator occurrence. */
  lemma {:induction false} SplitAround(a: string, b: string, sep: char)
    ensures Split(a + [sep] + b, sep) == Split(a, sep) + Split(b, sep)
    decreases |a|
  {
    var s := a + [sep] + b;
    if |a| == 0 {
      assert s[1..] == b;
    } else {
      assert s[1..] == a[1..] + [sep] + b;
      SplitAround(a[1..], b, sep);
      if a[0] != sep {
        var rest := Split(a[1..], sep);
        assert Split(s[1..], sep) == rest + Split(b, sep);
      }
    }
  }

  /** Appending the separator opens a new, empty last piece. */
  lemma {:induction false} SplitSnocSep(s: string, sep: char)
    ensures Split(s + [sep], sep) == Split(s, sep) + [""]
    decreases |s|
  {
    if |s| == 0 {
      var one: string := [sep];
      assert s + [sep] == one && one[1..] == "";
    } else {
      var s' := s[1..];
      assert (s + [sep])[1..] == s' + [sep];
      SplitSnocSep(s', sep);
      if s[0] != sep {
        var p' := Split(s', sep);
        var q' := Split(s' + [sep], sep);
        assert q' == p' + [""];
        assert q'[0] == p'[0];
        assert q'[1..] == p'[1..] + [""];
      }
    }
  }

  /** Appending any other character extends the last piece. */
  lemma {:induction false} SplitSnocOther(s: string, x: char, sep: char)
    requires x != sep
    ensures var p := Split(s, sep);
      Split(s + [x], sep) == p[..|p| - 1] + [Last(p) + [x]]
    decreases |s|
  {
    if |s| == 0 {
      var one: string := [x];
      assert s + [x] == one && one[1..] == "";
      assert Split(one[1..], sep) == [""];
      assert Split(one, sep) == [[x] + ""];
      assert [x] + "" == "" + [x];
    } else {
      var s' := s[1..];
      assert (s + [x])[1..] == s' + [x];
      SplitSnocOther(s', x, sep);
      if s[0] == sep {
        var p' := Split(s', sep);
        var p := [""] + p';
        assert Split(s, sep) == p;
        assert p[..|p| - 1] == [""] + p'[..|p'| - 1];
      } else {
        SnocExtendsHead(s, x, sep);
      }
    }
  }

  /** The step of `SplitSnocOther` when `s` starts with another character. */
  lemma SnocExtendsHead(s: string, x: char, sep: char)
    requires x != sep && |s| > 0 && s[0] != sep
    requires var p' := Split(s[1..], sep);
      Split(s[1..] + [x], sep) == p'[..|p'| - 1] + [Last(p') + [x]]
    ensures var p := Split(s, sep);
      Split(s + [x], sep) == p[..|p| - 1] + [Last(p) + [x]]
  {
    var s' := s[1..];
    assert (s + [x])[1..] == s' + [x];
    var p' := Split(s', sep);
    var q' := Split(s' + [x], sep);
    var p := [[s[0]] + p'[0]] + p'[1..];
    assert Split(s, sep) == p;
    assert Split(s + [x], sep) == [[s[0]] + q'[0]] + q'[1..];
    if |p'| == 1 {
      assert q' == [p'[0] + [x]];
      assert q'[1..] == [];
      assert [s[0]] + q'[0] == ([s[0]] + p'[0]) + [x];
      assert p[..|p| - 1] == [];
    } else {
      assert q'[0] == p'[0];
      assert q'[1..] == p'[1..|p'| - 1] + [Last(p') + [x]];
      assert p[..|p| - 1] == [[s[0]] + p'[0]] + p'[1..|p'| - 1];
    }
  }

  /** `fileName.split('.').pop()` is the text after the last dot. */
  lemma {:induction false} LastPieceIsAfterLast(s: string, sep: char)
    ensures Last(Split(s, sep)) == AfterLast(s, sep)
    decreases |s|
  {
    if |s| > 0 {
      var init := s[..|s| - 1];
      assert init + [s[|s| - 1]] == s;
      if s[|s| - 1] == sep {
        SplitSnocSep(init, sep);
      } else {
        SplitSnocOther(init, s[|s| - 1], sep);
      }
      LastPieceIsAfterLast(init, sep);
    }
  }

  /** Joining the pieces with the separator gives the string back. */
  lemma {:induction false} JoinSplit(s: string, sep: char)
    ensures Join(Split(s, sep), [sep]) == s
    decreases |s|
  {
    if |s| > 0 {
      JoinSplit(s[1..], sep);
      var rest := Split(s[1..], sep);
      if s[0] == sep {
        assert ([""] + rest)[1..] == rest;
      } else {
        var p := [[s[0]] + rest[0]] + rest[1..];
        if |rest| > 1 {
          assert p[1..] == rest[1..];
          assert Join(rest, [sep]) == rest[0] + [sep] + Join(rest[1..], [sep]);
        }
      }
    }
  }

  /** Splitting a join of separator-free pieces gives the pieces back. */
  lemma {:induction false} SplitJoin(xs: seq<string>, sep: char)
    requires |xs| > 0
    requires forall i :: 0 <= i < |xs| ==> sep !in xs[i]
    ensures Split(Join(xs, [sep]), sep) == xs
    decreases |xs|
  {
    SplitWithoutSep(xs[0], sep);
    if |xs| > 1 {
      SplitJoin(xs[1..], sep);
      SplitAround(xs[0], Join(xs[1..], [sep]), sep);
      assert [xs[0]] + xs[1..] == xs;
    }
  }

  /** Joining one more piece appends the separator and the piece. */
  lemma {:induction false} JoinSnoc(xs: seq<string>, x: string, sep: string)
    requires |xs| > 0
    ensures Join(xs + [x], sep) == Join(xs, sep) + sep + x
    decreases |xs|
  {
    if |xs| > 1 {
      assert (xs + [x])[1..] == xs[1..] + [x];
      JoinSnoc(xs[1..], x, sep);
    } else {
      assert (xs + [x])[1..] == [x];
    }
  }

  /** Joining two non-empty lists puts one separator between their joins. */
  lemma {:induction false} JoinAppend(xs: seq<string>, ys: seq<string>, sep: string)
    requires |xs| > 0 && |ys| > 0
    ensures Join(xs + ys, sep) == Join(xs, sep) + sep + Join(ys, sep)
    decreases |xs|
  {
    if |xs| == 1 {
      assert (xs + ys)[1..] == ys;
    } else {
      assert (xs + ys)[1..] == xs[1..] + ys;
      JoinAppend(xs[1..], ys, sep);
    }
  }

  // ---------------------------------------------------------------------
  // String.prototype.includes
  // ---------------------------------------------------------------------

  /** `sub` occurs in `s` starting at index `i`. */
  predicate OccursAt(s: string, sub: string, i: int) {
    0 <= i && i + |sub| <= |s| && s[i..i + |sub|] == sub
  }

  /** `s.includes(sub)`, scanning from the front: a needle longer than
      the text is never found, and the empty needle always is. */
  predicate Includes(s: string, sub: string)
    ensures Includes(s, sub) ==> |sub| <= |s|
    ensures |sub| == 0 ==> Includes(s, sub)
    decreases |s|
  {
    (|sub| <= |s| && s[..|sub|] == sub) || (|s| > 0 && Includes(s[1..], sub))
  }

  /** The scan finds `sub` exactly when it occurs at some index. */
  lemma {:induction false} IncludesIffOccurs(s: string, sub: string)
    ensures Includes(s, sub) <==> exists i :: OccursAt(s, sub, i)
    decreases |s|
  {
    if |sub| <= |s| && s[..|sub|] == sub {
      assert OccursAt(s, sub, 0);
    } else if |s| > 0 {
      IncludesIffOccurs(s[1..], sub);
      if Includes(s[1..], sub) {
        var i :| OccursAt(s[1..], sub, i);
        assert s[1..][i..i + |sub|] == s[i + 1..i + 1 + |sub|];
        assert OccursAt(s, sub, i + 1);
      }
      if exists i :: OccursAt(s, sub, i) {
        var i :| OccursAt(s, sub, i);
        assert i != 0;
        assert s[1..][i - 1..i - 1 + |sub|] == s[i..i + |sub|];
        assert OccursAt(s[1..], sub, i - 1);
      }
    }
  }

  /** A string includes each of its suffixes. */
  lemma {:induction false} IncludesSuffix(pre: string, sub: string)
    ensures Includes(pre + sub, sub)
  {
    assert (pre + sub)[|pre|..|pre| + |sub|] == sub;
    assert OccursAt(pre + sub, sub, |pre|);
    IncludesIffOccurs(pre + sub, sub);
  }

  /** A prefix that does not hold the first character of `sub` cannot
      host the start of an occurrence, so `includes` sees past it. */
  lemma {:induction false} IncludesAfterPrefix(pre: string, s: string, sub: string)
    requires |sub| > 0 && sub[0] !in pre
    ensures Includes(pre + s, sub) <==> Includes(s, sub)
    decreases |pre|
  {
    if |pre| > 0 {
      assert (pre + s)[0] == pre[0];
      assert (pre + s)[1..] == pre[1..] + s;
      IncludesAfterPrefix(pre[1..], s, sub);
    } else {
      assert pre + s == s;
    }
  }
}

=== FILE: like_button.dfy ===
/** The like button: an optimistic update of the feed's like count and of
    the button's own flag, sent to the backend and undone when the backend
    reports an error or throws. */
module LikeButton {
  import opened Base
  import opened Store

  /** `updateLocalVideoState(increment)` on the feed `videos`: the entries
      with the button's video id gain or lose one like. */
  function UpdateLocal(videos: seq<VideoPost>, id: string, increment: bool): (r: seq<VideoPost>)
    ensures |r| == |videos|
    // Only the like count of a matching entry changes ...
    ensures forall i :: 0 <= i < |r| ==> r[i] == videos[i].(likes := r[i].likes)
    ensures forall i :: 0 <= i < |r| && videos[i].id != id ==> r[i] == videos[i]
    // ... by exactly one, with no lower bound.
    ensures forall i :: 0 <= i < |r| && videos[i].id == id ==>
      r[i].likes - videos[i].likes == (if increment then 1 else -1)
  {
    seq(|videos|, i requires 0 <= i < |videos| =>
      if videos[i].id == id then videos[i].(likes := if increment then videos[i].likes + 1 else videos[i].likes - 1)
      else videos[i])
  }

  /** An update followed by the opposite update restores the feed. */
  lemma UpdateUndo(videos: seq<VideoPost>, id: string, increment: bool)
    ensures UpdateLocal(UpdateLocal(videos, id, increment), id, !increment) == videos
  {
    var r := UpdateLocal(UpdateLocal(videos, id, increment), id, !increment);
    assert forall i :: 0 <= i < |r| ==> r[i] == videos[i];
  }

  /** The decrement is not clamped: an unliked entry at zero goes to -1. */
  lemma DecrementNotClamped()
    ensures UpdateLocal([VideoPost("v", 0, false)], "v", false) == [VideoPost("v", -1, false)]
  {
  }

  /** What the backend call does: `Refused` carries the `error` field of the
      response, which holds the message of whatever the update threw and so
      may be the empty string. */
  datatype Backend = Saved | Refused(error: string) | Threw

  /** The request `batchUpdateLikes(video.id, user.uid, willLike)`. */
  datatype LikeCall = LikeCall(videoId: string, uid: string, shouldIncrement: bool)

  /** The button flag and the store after a press, with the call made. */
  datatype Pressed = Pressed(isLiked: bool, store: AppState, call: Option<LikeCall>)

  /** The failure path is taken: the call throws, or its `error` field is
      truthy. An empty error string is falsy and counts as a success. */
  predicate Reverts(b: Backend) {
    (b.Refused? && b.error != "") || b.Threw?
  }

  /** `handleLikePress` as written: both the optimistic update and the
      revert are computed from the `videos` list the press started with. */
  function PressAsWritten(video: VideoPost, isLiked: bool, store: AppState, backend: Backend): (r: Pressed)
    ensures video.isLocal || store.user.None? ==> r == Pressed(isLiked, store, None)
    ensures !video.isLocal && store.user.Some? ==>
      r.call == Some(LikeCall(video.id, store.user.value.uid, !isLiked))
    // A press the backend does not reject keeps the flipped flag and the
    // one-step update ...
    ensures !video.isLocal && store.user.Some? && !Reverts(backend) ==>
      r.isLiked == !isLiked && r.store == SetVideos(store, UpdateLocal(store.videos, video.id, !isLiked))
    // ... and a rejected one restores the flag, but moves the captured list
    // the other way instead of restoring it.
    ensures !video.isLocal && store.user.Some? && Reverts(backend) ==>
      r.isLiked == isLiked && r.store == SetVideos(store, UpdateLocal(store.videos, video.id, isLiked))
  {
    if video.isLocal || store.user.None? then Pressed(isLiked, store, None)
    else
      var willLike := !isLiked;
      var call := Some(LikeCall(video.id, store.user.value.uid, willLike));
      var optimistic := SetVideos(store, UpdateLocal(store.videos, video.id, willLike));
      if Reverts(backend) then Pressed(!willLike, SetVideos(optimistic, UpdateLocal(store.videos, video.id, !willLike)), call)
      else Pressed(willLike, optimistic, call)
  }

  /** The revert as written does not restore the feed: liking an entry
      with five likes and failing leaves it at four. */
  lemma StaleRevertOffByOne()
    ensures var store := Initial().(user := Some(User("u")), videos := [VideoPost("v", 5, false)]);
      PressAsWritten(VideoPost("v", 5, false), false, store, Threw).store.videos == [VideoPost("v", 4, false)]
  {
  }

  /** `handleLikePress` with the revert applied to the list the optimistic
      update produced. */
  function Press(video: VideoPost, isLiked: bool, store: AppState, backend: Backend): (r: Pressed)
    // Local videos have no button, and nothing happens without a user.
    ensures video.isLocal || store.user.None? ==> r == Pressed(isLiked, store, None)
    // Otherwise the call carries the flipped flag ...
    ensures !video.isLocal && store.user.Some? ==>
      r.call == Some(LikeCall(video.id, store.user.value.uid, !isLiked))
    // ... a success keeps the flipped flag and the one-step update ...
    ensures !video.isLocal && store.user.Some? && !Reverts(backend) ==>
      r.isLiked == !isLiked && r.store == SetVideos(store, UpdateLocal(store.videos, video.id, !isLiked))
    // ... and a failure restores both the flag and the store exactly.
    ensures Reverts(backend) ==> r.isLiked == isLiked && r.store == store
  {
    if video.isLocal || store.user.None? then Pressed(isLiked, store, None)
    else
      var willLike := !isLiked;
      var call := Some(LikeCall(video.id, store.user.value.uid, willLike));
      var optimistic := SetVideos(store, UpdateLocal(store.videos, video.id, willLike));
      if Reverts(backend) then
        UpdateUndo(store.videos, video.id, willLike);
        Pressed(!willLike, SetVideos(optimistic, UpdateLocal(optimistic.videos, video.id, !willLike)), call)
      else Pressed(willLike, optimistic, call)
  }

  /** A refusal whose message is empty is not noticed: the optimistic
      flag and like count stay, exactly as after a save. */
  lemma EmptyRefusalKept(video: VideoPost, isLiked: bool, store: AppState)
    requires !video.isLocal && store.user.Some?
    ensures Press(video, isLiked, store, Refused("")) == Press(video, isLiked, store, Saved)
    ensures Press(video, isLiked, store, Refused("")).isLiked == !isLiked
  {
  }

  /** Whatever the backend does, a press changes the store only in the
      like count of the pressed video's entries. */
  lemma PressTouchesOnlyLikes(video: VideoPost, isLiked: bool, store: AppState, backend: Backend)
    ensures var r := Press(video, isLiked, store, backend);
      && r.store.(videos := store.videos) == store
      && |r.store.videos| == |store.videos|
      && (forall i :: 0 <= i < |store.videos| ==>
            r.store.videos[i] == store.videos[i].(likes := r.store.videos[i].likes))
      && forall i :: 0 <= i < |store.videos| && store.videos[i].id != video.id ==>
           r.store.videos[i] == store.videos[i]
  {
  }
}

=== FILE: providers.dfy ===
/** The two external providers, seen only through what they are given and
    what they give back. */
module Providers {
  import opened Base

  /** The values substituted into a chat prompt template. The composite
      handler passes a user context, which may be `null`; the plain chat
      handler passes none (`Undefined`). */
  datatype ChatPrompt = ChatPrompt(
    videoDescription: string,
    additionalContext: Field<string>,
    chatHistory: string,
    question: string)

  /** What the speech-to-text call returns: a response whose `text` field
      may be missing, or a thrown error. */
  datatype SpeechOutcome = Transcribed(text: Option<string>) | SpeechFailed(message: string)

  /** What the chat chain returns: the parsed answer text, or a thrown error. */
  datatype ChatOutcome = Answered(answer: string) | ChatFailed(message: string)
}

=== FILE: routes.dfy ===
/** The application's static routes: the `ROUTES` table, the white-list
    `isValidRoute` checks a string against, and the typed identity helper. */
module Routes {
  import opened Base

  /** The static routes of the router, one constructor per path. */
  datatype StaticRoute =
    | Root | AuthGroup | SignIn | SignUp | TabsGroup | TabsRoot | TabsProfile | Modal
  {
    function Path(): string {
      match this
      case Root => "/"
      case AuthGroup => "/(auth)"
      case SignIn => "/(auth)/sign-in"
      case SignUp => "/(auth)/sign-up"
      case TabsGroup => "/(tabs)"
      case TabsRoot => "/(tabs)/"
      case TabsProfile => "/(tabs)/profile"
      case Modal => "/modal"
    }

    /** The non-empty path segments, as the router reports them for a
        screen at this path. */
    function Segments(): seq<string> {
      match this
      case Root => []
      case AuthGroup => ["(auth)"]
      case SignIn => ["(auth)", "sign-in"]
      case SignUp => ["(auth)", "sign-up"]
      case TabsGroup => ["(tabs)"]
      case TabsRoot => ["(tabs)"]
      case TabsProfile => ["(tabs)", "profile"]
      case Modal => ["modal"]
    }
  }

  /** The values of `ROUTES`, each a string cast to the route type. */
  const AuthSignInRoute: string := "/(auth)/sign-in"
  const AuthSignUpRoute: string := "/(auth)/sign-up"
  const TabsRootRoute: string := "/(tabs)/"
  const TabsProfileRoute: string := "/(tabs)/profile"
  const ModalRoute: string := "/modal"

  function RouteValues(): seq<string> {
    [AuthSignInRoute, AuthSignUpRoute, TabsRootRoute, TabsProfileRoute, ModalRoute]
  }

  /** The set `isValidRoute` consults. */
  const ValidRoutes: set<string> :=
    {"/", "/(auth)", "/(auth)/sign-in", "/(auth)/sign-up", "/(tabs)", "/(tabs)/", "/(tabs)/profile", "/modal"}

  /** The static route at a path, if any. */
  function Lookup(route: string): (r: Option<StaticRoute>)
    ensures r.Some? ==> r.value.Path() == route
    ensures r.None? ==> forall s: StaticRoute :: s.Path() != route
  {
    if route == "/" then Some(Root)
    else if route == "/(auth)" then Some(AuthGroup)
    else if route == "/(auth)/sign-in" then Some(SignIn)
    else if route == "/(auth)/sign-up" then Some(SignUp)
    else if route == "/(tabs)" then Some(TabsGroup)
    else if route == "/(tabs)/" then Some(TabsRoot)
    else if route == "/(tabs)/profile" then Some(TabsProfile)
    else if route == "/modal" then Some(Modal)
    else None
  }

  /** `isValidRoute(route)`: membership in the white-list, which holds
      exactly the paths of the static routes. */
  function IsValidRoute(route: string): (b: bool)
    ensures b <==> exists s: StaticRoute :: s.Path() == route
    ensures b <==> Lookup(route).Some?
  {
    assert Lookup(route).Some? ==> Lookup(route).value.Path() == route;
    route in ValidRoutes
  }

  /** `getTypedRoute(route)`: the identity on routes. */
  function GetTypedRoute(route: StaticRoute): (r: StaticRoute)
    ensures r == route && IsValidRoute(r.Path())
  {
    route
  }

  /** Distinct routes have distinct paths, so a path names its route. */
  lemma LookupPath(s: StaticRoute)
    ensures Lookup(s.Path()) == Some(s)
  {
  }

  /** The white-list has exactly eight entries. */
  lemma EightRoutes()
    ensures |ValidRoutes| == 8
  {
    assert ValidRoutes == {"/", "/(auth)", "/(auth)/sign-in", "/(auth)/sign-up"} + {"/(tabs)", "/(tabs)/", "/(tabs)/profile", "/modal"};
  }

  /** Every value of `ROUTES` passes the white-list, so its cast is sound. */
  lemma RouteValuesValid()
    ensures forall v :: v in RouteValues() ==> IsValidRoute(v)
  {
  }

  /** The two group paths are valid routes but not values of `ROUTES`. */
  lemma GroupsNotInTable()
    ensures IsValidRoute("/(tabs)") && "/(tabs)" !in RouteValues()
    ensures IsValidRoute("/(auth)") && "/(auth)" !in RouteValues()
  {
  }

  /** Screens the router also serves, but which the white-list leaves out:
      the top-level sign-in, the bookmark screens and the second tab. */
  lemma ScreensOutsideWhitelist()
    ensures !IsValidRoute("/sign-in") && !IsValidRoute("/bookmarkDetail")
    ensures !IsValidRoute("/profile/bookmarks") && !IsValidRoute("/(tabs)/two")
  {
  }

  /** A screen's segments begin with "(auth)" exactly on the auth routes. */
  lemma AuthGroupSegments(s: StaticRoute)
    ensures (|s.Segments()| > 0 && s.Segments()[0] == "(auth)") <==> s in {AuthGroup, SignIn, SignUp}
  {
  }
}

=== FILE: store.dfy ===
/** The application store: the signed-in user, the video feed, the filter
    selections and three transient flags, with the filter setters and the
    persistence projection used when the state is saved and restored. */
module Store {
  import opened Base

  /** `CUISINE_TYPES`, as a type. */
  datatype Cuisine = Italian | Mexican | Chinese | Indian | Japanese | American | Thai | Mediterranean

  /** `DIFFICULTY_LEVELS`, as a type. */
  datatype Difficulty = Easy | Medium | Hard

  /** The options in the order the filter screen lists them. */
  const CuisineTypes: seq<Cuisine> := [Italian, Mexican, Chinese, Indian, Japanese, American, Thai, Mediterranean]
  const DifficultyLevels: seq<Difficulty> := [Easy, Medium, Hard]

  /** The signed-in account; only its id is read by the model. */
  datatype User = User(uid: string)

  /** A feed entry; the fields the model reads. `likes` is a JavaScript
      number holding an integer. */
  datatype VideoPost = VideoPost(id: string, likes: int, isLocal: bool)

  /** The data part of `AppState` (its setters are the functions below). */
  datatype AppState = AppState(
    user: Option<User>,
    videos: seq<VideoPost>,
    currentVideo: Option<VideoPost>,
    selectedCuisines: seq<Cuisine>,
    selectedDifficulties: seq<Difficulty>,
    isLoading: bool,
    error: Option<string>,
    isHydrated: bool)

  /** The state the store is created with. */
  function Initial(): (s: AppState)
    ensures s.user.None? && s.currentVideo.None? && s.error.None?
    ensures s.videos == [] && s.selectedCuisines == [] && s.selectedDifficulties == []
    ensures !s.isLoading && !s.isHydrated
  {
    AppState(None, [], None, [], [], false, None, false)
  }

  /** `setFilters(cuisines, difficulties)`. */
  function SetFilters(s: AppState, cuisines: seq<Cuisine>, difficulties: seq<Difficulty>): (r: AppState)
    ensures r.selectedCuisines == cuisines && r.selectedDifficulties == difficulties
    // Every other field is left as it was.
    ensures r.(selectedCuisines := s.selectedCuisines, selectedDifficulties := s.selectedDifficulties) == s
  {
    s.(selectedCuisines := cuisines, selectedDifficulties := difficulties)
  }

  /** `clearFilters()`. */
  function ClearFilters(s: AppState): (r: AppState)
    ensures r.selectedCuisines == [] && r.selectedDifficulties == []
    ensures r.(selectedCuisines := s.selectedCuisines, selectedDifficulties := s.selectedDifficulties) == s
  {
    s.(selectedCuisines := [], selectedDifficulties := [])
  }

  /** `setVideos(videos)`. */
  function SetVideos(s: AppState, videos: seq<VideoPost>): (r: AppState)
    ensures r.videos == videos && r.(videos := s.videos) == s
  {
    s.(videos := videos)
  }

  /** `setHydrated(hydrated)`. */
  function SetHydrated(s: AppState, hydrated: bool): (r: AppState)
    ensures r.isHydrated == hydrated && r.(isHydrated := s.isHydrated) == s
  {
    s.(isHydrated := hydrated)
  }

  /** `setUser(user)`. */
  function SetUser(s: AppState, user: Option<User>): (r: AppState)
    ensures r.user == user && r.(user := s.user) == s
    // The user is persisted: the change reaches the saved projection.
    ensures Partialize(r) == Partialize(s).(user := user)
  {
    s.(user := user)
  }

  /** Clearing is setting both selections to empty. */
  lemma ClearIsEmptySetFilters(s: AppState)
    ensures ClearFilters(s) == SetFilters(s, [], [])
    ensures ClearFilters(ClearFilters(s)) == ClearFilters(s)
  {
  }

  /** Setting the filters to what they already are changes nothing. */
  lemma SetFiltersUnchanged(s: AppState)
    ensures SetFilters(s, s.selectedCuisines, s.selectedDifficulties) == s
  {
  }

  // -----------------------------------------------------------------------
  // Persistence (the `persist` middleware under the key "app-storage")
  // -----------------------------------------------------------------------

  const StorageKey: string := "app-storage"

  /** The part of the state that is saved. */
  datatype Persisted = Persisted(
    user: Option<User>,
    videos: seq<VideoPost>,
    currentVideo: Option<VideoPost>,
    selectedCuisines: seq<Cuisine>,
    selectedDifficulties: seq<Difficulty>)

  /** `partialize`: the saved projection of a state. */
  function Partialize(s: AppState): (p: Persisted)
    ensures p.user == s.user && p.videos == s.videos && p.currentVideo == s.currentVideo
    ensures p.selectedCuisines == s.selectedCuisines && p.selectedDifficulties == s.selectedDifficulties
  {
    Persisted(s.user, s.videos, s.currentVideo, s.selectedCuisines, s.selectedDifficulties)
  }

  /** The middleware's default merge `{...current, ...persisted}`: saved
      fields win, the rest keeps its current value. */
  function Merge(current: AppState, p: Persisted): (r: AppState)
    ensures Partialize(r) == p
    ensures r.isLoading == current.isLoading && r.error == current.error
    ensures r.isHydrated == current.isHydrated
  {
    current.(user := p.user, videos := p.videos, currentVideo := p.currentVideo,
             selectedCuisines := p.selectedCuisines, selectedDifficulties := p.selectedDifficulties)
  }

  /** What reading the storage key yields at start-up. */
  datatype Stored = ReadFailed(message: string) | Empty | Found(saved: Persisted)

  /** Rehydration followed by `onRehydrateStorage`'s callback, which marks
      the store hydrated whenever it receives a state. The middleware hands
      it the merged state after a successful read (also when nothing was
      saved) and no state when the read failed. */
  function Rehydrate(current: AppState, stored: Stored): (r: AppState)
    ensures r.isHydrated <==> !stored.ReadFailed? || current.isHydrated
    ensures stored.Found? ==> Partialize(r) == stored.saved
    ensures !stored.Found? ==> Partialize(r) == Partialize(current)
    ensures r.isLoading == current.isLoading && r.error == current.error
  {
    match stored
    case ReadFailed(_) => current
    case Empty => SetHydrated(current, true)
    case Found(saved) => SetHydrated(Merge(current, saved), true)
  }

  /** The transient flags never reach storage: two states that differ only
      in them are saved identically. */
  lemma TransientNotPersisted(s: AppState, loading: bool, error: Option<string>, hydrated: bool)
    ensures Partialize(s.(isLoading := loading, error := error, isHydrated := hydrated)) == Partialize(s)
  {
  }

  /** Saving a state and restoring it into a fresh store brings back every
      saved field, and leaves the restored store hydrated but not loading
      and without an error. */
  lemma SaveRestore(s: AppState)
    ensures var r := Rehydrate(Initial(), Found(Partialize(s)));
      && Partialize(r) == Partialize(s) && r.isHydrated && !r.isLoading && r.error.None?
    ensures Rehydrate(Initial(), Found(Partialize(s))) == s.(isLoading := false, error := None, isHydrated := true)
  {
  }
}

=== FILE: transcription.dfy ===
/** The transcription stage common to the composite handler's
    `handleTranscription` and the transcription handler's `/transcribe`
    branch: check the audio fields, name a temporary file, check size then
    format, write, call the speech provider, reject an empty transcript,
    and attempt to unlink the temporary file on every exit after it was
    named. */
module Transcription {
  import opened Base
  import opened Js
  import opened AudioFormat
  import opened Providers
  import opened Effects
  import opened Invocation

  /** How the stage ended. */
  datatype Outcome =
    | Missing                          // an audio field is falsy
    | Oversized                        // decoded length above 25 MiB
    | BadFormat                        // extension not in the allow-list
    | WriteError(message: string)      // `writeFile` threw
    | ProviderError(message: string)   // the speech provider threw
    | Silent                           // no text, or only white space
    | Heard(text: string)              // the transcript, untrimmed

  datatype StageRun = StageRun(outcome: Outcome, trace: seq<Effect>)

  /** `join(tmpdir(), `whisper_${Date.now()}_${fileName}`)`. */
  function TempPath(env: Env, fileName: string): string {
    env.tmpDir + "/whisper_" + env.stamp + "_" + fileName
  }

  /** Both validations passed: the point after which the file is written. */
  predicate Validated(p: Payload) {
    HasAudio(p) && WithinLimit(p.decodedSize) && Supported(p.fileName.value)
  }

  /** The text makes a usable transcript: `!text || text.trim() === ''` is false. */
  predicate Usable(text: Option<string>) {
    Truthy(text) && !Blank(text.value)
  }

  /** The effects between naming the file and unlinking it: nothing when a
      check fails, a failed write, or a write followed by the speech call. */
  function Middle(p: Payload, env: Env, path: string): (r: StageRun)
    requires HasAudio(p)
    ensures r.trace == [] || r.trace == [Written(path, false)]
         || r.trace == [Written(path, true), ProviderCalled(Speech(path))]
    ensures |r.trace| > 0 <==> Validated(p)
    ensures |r.trace| == 2 <==> Validated(p) && env.writeError.None?
  {
    if !WithinLimit(p.decodedSize) then StageRun(Oversized, [])
    else if !Supported(p.fileName.value) then StageRun(BadFormat, [])
    else if env.writeError.Some? then StageRun(WriteError(env.writeError.value), [Written(path, false)])
    else
      var calls := [Written(path, true), ProviderCalled(Speech(path))];
      match env.speech
      case SpeechFailed(m) => StageRun(ProviderError(m), calls)
      case Transcribed(text) =>
        if !Usable(text) then StageRun(Silent, calls) else StageRun(Heard(text.value), calls)
  }

  /** Each of the three middles, bracketed by naming and unlinking the
      file, is a disciplined trace. */
  lemma SessionDisciplined(path: string, mid: seq<Effect>, ok: bool)
    requires mid == [] || mid == [Written(path, false)]
          || mid == [Written(path, true), ProviderCalled(Speech(path))]
    ensures Disciplined([TempCreated(path)] + mid + [Unlinked(path, ok)])
  {
    var t := [TempCreated(path)] + mid + [Unlinked(path, ok)];
    ReplayAppend(NoTemp, [TempCreated(path)] + mid, [Unlinked(path, ok)]);
    ReplayAppend(NoTemp, [TempCreated(path)], mid);
    assert Replay(NoTemp, [TempCreated(path)]) == Some(Named(path));
    if mid == [Written(path, true), ProviderCalled(Speech(path))] {
      ReplayAppend(Named(path), [Written(path, true)], [ProviderCalled(Speech(path))]);
    }
  }

  /** In a bracketed session, a write happened exactly when the middle is
      not empty, and the speech provider was called exactly when the write
      succeeded. */
  lemma SessionEffects(path: string, mid: seq<Effect>, ok: bool)
    requires mid == [] || mid == [Written(path, false)]
          || mid == [Written(path, true), ProviderCalled(Speech(path))]
    ensures var t := [TempCreated(path)] + mid + [Unlinked(path, ok)];
      && (Wrote(t) <==> |mid| > 0)
      && (SpeechCalled(t) <==> |mid| == 2)
  {
    var t := [TempCreated(path)] + mid + [Unlinked(path, ok)];
    if Wrote(t) {
      var i :| 0 <= i < |t| && t[i].Written?;
      assert i == 1;
    }
    if |mid| > 0 {
      assert t[1].Written?;
    }
    if SpeechCalled(t) {
      var i :| 0 <= i < |t| && t[i].ProviderCalled? && t[i].call.Speech?;
      assert i == 2;
    }
    if |mid| == 2 {
      assert t[2].ProviderCalled? && t[2].call.Speech?;
    }
  }

  /** The stage. */
  function Stage(p: Payload, env: Env): (r: StageRun)
    // The temporary file follows the lifecycle discipline.
    ensures Disciplined(r.trace)
    // Missing fields are reported before any path is assigned.
    ensures r.outcome.Missing? <==> !HasAudio(p)
    ensures !HasAudio(p) ==> r.trace == []
    // Once a path is assigned, the trace starts by naming it and ends by
    // unlinking it, whatever happened in between.
    ensures HasAudio(p) ==>
      var path := TempPath(env, p.fileName.value);
      |r.trace| >= 2 && r.trace[0] == TempCreated(path) && r.trace[|r.trace| - 1] == Unlinked(path, env.unlinkOk)
    // Nothing is written unless both checks passed; the speech provider is
    // called exactly when the write succeeded.
    ensures Wrote(r.trace) <==> Validated(p)
    ensures SpeechCalled(r.trace) <==> Validated(p) && env.writeError.None?
  {
    if !HasAudio(p) then StageRun(Missing, [])
    else
      var path := TempPath(env, p.fileName.value);
      var mid := Middle(p, env, path);
      var trace := [TempCreated(path)] + mid.trace + [Unlinked(path, env.unlinkOk)];
      SessionDisciplined(path, mid.trace, env.unlinkOk);
      SessionEffects(path, mid.trace, env.unlinkOk);
      StageRun(mid.outcome, trace)
  }

  /** The stage's decision table: the size check comes first, then the
      format check, then the write, then the provider, then the
      empty-transcript check. */
  lemma StageOutcomes(p: Payload, env: Env)
    ensures var o := Stage(p, env).outcome;
      && (o.Oversized? <==> HasAudio(p) && !WithinLimit(p.decodedSize))
      && (o.BadFormat? <==> HasAudio(p) && WithinLimit(p.decodedSize) && !Supported(p.fileName.value))
      && (o.WriteError? <==> Validated(p) && env.writeError.Some?)
      && (o.WriteError? ==> o.message == env.writeError.value)
      && (o.ProviderError? <==> Validated(p) && env.writeError.None? && env.speech.SpeechFailed?)
      && (o.ProviderError? ==> o.message == env.speech.message)
      && (o.Silent? <==> Validated(p) && env.writeError.None? && env.speech.Transcribed? && !Usable(env.speech.text))
      && (o.Heard? <==> Validated(p) && env.writeError.None? && env.speech.Transcribed? && Usable(env.speech.text))
      && (o.Heard? ==> o.text == env.speech.text.value && !Blank(o.text))
  {
  }

  /** The unlink's success is not part of the outcome. */
  lemma StageIgnoresUnlink(p: Payload, env: Env, ok: bool)
    ensures Stage(p, env.(unlinkOk := ok)).outcome == Stage(p, env).outcome
  {
    StageOutcomes(p, env);
    StageOutcomes(p, env.(unlinkOk := ok));
  }
}

=== FILE: whisper.dfy ===
/** The transcription handler: a configuration check, `/ping`, body
    parsing, then either the `/transcribe` branch (the shared transcription
    stage, answered with a 400 or 500 per failure) or a static descriptor
    of the service. */
module Whisper {
  import opened Base
  import opened Js
  import opened AudioFormat
  import opened Providers
  import opened Effects
  import opened Http
  import opened Invocation
  import opened Transcription

  /** The failure replies, each sent as `{error: Title(), details, success: false}`. */
  datatype Failure =
    | ConfigurationError | InvalidBody | InvalidRequest | FileTooLarge
    | UnsupportedFile | TranscriptionFailed | InternalError
  {
    function Title(): string {
      match this
      case ConfigurationError => "Configuration error"
      case InvalidBody => "Invalid request body"
      case InvalidRequest => "Invalid request"
      case FileTooLarge => "File too large"
      case UnsupportedFile => "Unsupported file format"
      case TranscriptionFailed => "Transcription failed"
      case InternalError => "Internal server error"
    }
  }

  /** The success bodies: `/ping`, the service descriptor, a transcript. */
  datatype Body =
    | Pong
    | Ready(status: string, supportedFormats: seq<string>, maxFileSize: string, transcribeEndpoint: string)
    | Transcript(transcription: string, model: string, kind: string,
                 description: string, context: string, source: string)

  const MissingKeyDetails: string := "OpenAI API key not configured"
  const InvalidBodyDetails: string := "Request body must be valid JSON"
  const MissingFieldsDetails: string := "Request must include audioData, fileName, and mimeType"
  const TooLargeDetails: string := "Maximum file size is 25MB"
  const NoSpeechDetails: string := "No speech detected or audio was unclear"

  /** The runtime's message when a body that parsed to `null` is asked for `path`. */
  const NullPathMessage: string := "Cannot read properties of null (reading 'path')"

  function UnsupportedDetails(): string {
    "Supported formats are: " + Join(SupportedFormats, ", ")
  }

  /** The reply when `body.path` is not `/transcribe`. */
  function Descriptor(): (b: Body)
    ensures b.Ready? && b.status == "ready" && b.transcribeEndpoint == "POST /transcribe"
    // It advertises the very list and limit the `/transcribe` branch enforces.
    ensures b.supportedFormats == SupportedFormats
    ensures b.maxFileSize == "25MB" && MaxFileSize == 25 * 1024 * 1024
  {
    Ready("ready", SupportedFormats, "25MB", "POST /transcribe")
  }

  /** Every format the descriptor advertises is accepted as the extension
      of an uploaded file, whatever its stem. */
  lemma AdvertisedFormatAccepted(stem: string, i: nat)
    requires i < |Descriptor().supportedFormats|
    ensures Supported(stem + "." + Descriptor().supportedFormats[i])
  {
    var f := SupportedFormats[i];
    assert '.' !in f && forall j :: 0 <= j < |f| ==> !('A' <= f[j] <= 'Z') by {
      assert f in ["mp3", "mp4", "mpeg", "mpga", "m4a", "wav", "webm"];
    }
    ExtensionOfDotted(stem, f);
    LowerAsciiFixed(f);
  }

  /** The success reply for a transcript. */
  function TranscriptBody(text: string): (b: Body)
    ensures b.Transcript?
    ensures b.transcription == text && b.description == text && b.context == text
    ensures b.model == "whisper-1"
  {
    Transcript(text, "whisper-1", "audio_transcription", text, text, "whisper_transcription")
  }

  /** The `/transcribe` branch. */
  function Transcribe(p: Payload, env: Env): (r: Run<Body, Failure>)
    ensures r.trace == Stage(p, env).trace
    ensures r.reply.Ok? <==> Stage(p, env).outcome.Heard?
    ensures r.reply.Ok? ==> r.reply.body == TranscriptBody(Stage(p, env).outcome.text)
  {
    var s := Stage(p, env);
    var reply: Reply<Body, Failure> :=
      match s.outcome
      case Missing => Err(InvalidRequest, MissingFieldsDetails, 400)
      case Oversized => Err(FileTooLarge, TooLargeDetails, 400)
      case BadFormat => Err(UnsupportedFile, UnsupportedDetails(), 400)
      case WriteError(m) => Err(TranscriptionFailed, m, 500)
      case ProviderError(m) => Err(TranscriptionFailed, m, 500)
      case Silent => Err(TranscriptionFailed, NoSpeechDetails, 400)
      case Heard(text) => Ok(TranscriptBody(text));
    Run(reply, s.trace)
  }

  /** The transcription handler. */
  function Handle(req: Request, env: Env): (r: Run<Body, Failure>)
    // Without an API key every request fails with a configuration error,
    // `/ping` included.
    ensures !Truthy(env.openAiKey) ==>
      r == Run(Err(ConfigurationError, MissingKeyDetails, 500), [])
    ensures Truthy(env.openAiKey) && req.path == "/ping" ==> r == Run(Ok(Pong), [])
    // The temporary file follows the lifecycle discipline on every path.
    ensures Disciplined(r.trace)
    // A transcript reply repeats the provider's text in all three places.
    ensures r.reply.Ok? && r.reply.body.Transcript? ==>
      && env.speech.Transcribed? && env.speech.text == Some(r.reply.body.transcription)
      && r.reply.body.description == r.reply.body.transcription
      && r.reply.body.context == r.reply.body.transcription
      && r.reply.body.model == "whisper-1"
    ensures r.reply.Err? ==> r.reply.status == 400 || r.reply.status == 500
  {
    if !Truthy(env.openAiKey) then Run(Err(ConfigurationError, MissingKeyDetails, 500), [])
    else if req.path == "/ping" then Run(Ok(Pong), [])
    else
      assert Replay(NoTemp, []) == Some(NoTemp);
      match BodyDoc(req.body)
      case Failure(_) => Run(Err(InvalidBody, InvalidBodyDetails, 400), [])
      case Success(Null) => Run(Err(InternalError, NullPathMessage, 500), [])
      case Success(Object(p)) =>
        if p.path == Some("/transcribe") then
          StageOutcomes(p, env);
          Transcribe(p, env)
        else Run(Ok(Descriptor()), [])
  }

  // -----------------------------------------------------------------------
  // Properties of the handler
  // -----------------------------------------------------------------------

  /** The request is configured, not `/ping`, and its body is the object `p`. */
  predicate Reaches(req: Request, env: Env, p: Payload) {
    Truthy(env.openAiKey) && req.path != "/ping" && BodyDoc(req.body) == Success(Object(p))
  }

  /** A string body that does not parse is refused with 400. */
  lemma InvalidBodyRejected(req: Request, env: Env)
    requires Truthy(env.openAiKey) && req.path != "/ping" && BodyDoc(req.body).Failure?
    ensures Handle(req, env) == Run(Err(InvalidBody, InvalidBodyDetails, 400), [])
    ensures InvalidBody.Title() == "Invalid request body"
  {
  }

  /** Any body whose `path` is not `/transcribe` gets the static descriptor:
      status "ready", the allow-list, "25MB". */
  lemma DescriptorOtherwise(req: Request, env: Env, p: Payload)
    requires Reaches(req, env, p) && p.path != Some("/transcribe")
    ensures Handle(req, env) == Run(Ok(Descriptor()), [])
    ensures Descriptor().status == "ready" && Descriptor().supportedFormats == SupportedFormats
    ensures Descriptor().maxFileSize == "25MB"
  {
  }

  /** A missing audio field is refused with 400 before any temporary path
      is assigned, so no cleanup is attempted. */
  lemma MissingFieldsRejected(req: Request, env: Env, p: Payload)
    requires Reaches(req, env, p) && p.path == Some("/transcribe") && !HasAudio(p)
    ensures Handle(req, env) == Run(Err(InvalidRequest, MissingFieldsDetails, 400), [])
  {
  }

  /** An oversized payload is refused with 400 "File too large", whatever
      its format; a supported-size payload with another extension with 400
      "Unsupported file format"; in both cases nothing is written. */
  lemma SizeThenFormat(req: Request, env: Env, p: Payload)
    requires Reaches(req, env, p) && p.path == Some("/transcribe") && HasAudio(p)
    ensures !WithinLimit(p.decodedSize) ==>
      Handle(req, env).reply == Err(FileTooLarge, TooLargeDetails, 400)
    ensures WithinLimit(p.decodedSize) && !Supported(p.fileName.value) ==>
      Handle(req, env).reply == Err(UnsupportedFile, UnsupportedDetails(), 400)
    ensures !Validated(p) ==> !Wrote(Handle(req, env).trace)
    ensures FileTooLarge.Title() == "File too large" && UnsupportedFile.Title() == "Unsupported file format"
  {
    StageOutcomes(p, env);
  }

  /** A request for `/transcribe` is answered by the transcription branch. */
  lemma TranscribeRoute(req: Request, env: Env, p: Payload)
    requires Reaches(req, env, p) && p.path == Some("/transcribe")
    ensures Handle(req, env) == Transcribe(p, env)
  {
  }

  /** An empty or white-space transcript is a 400; a provider exception or
      a failed write is a 500 carrying the thrown message. */
  lemma TranscriptionFailures(req: Request, env: Env, p: Payload)
    requires Reaches(req, env, p) && p.path == Some("/transcribe") && Validated(p)
    ensures env.writeError.Some? ==>
      Handle(req, env).reply == Err(TranscriptionFailed, env.writeError.value, 500)
    ensures env.writeError.None? && env.speech.SpeechFailed? ==>
      Handle(req, env).reply == Err(TranscriptionFailed, env.speech.message, 500)
    ensures env.writeError.None? && env.speech.Transcribed? && !Usable(env.speech.text) ==>
      Handle(req, env).reply == Err(TranscriptionFailed, NoSpeechDetails, 400)
    ensures TranscriptionFailed.Title() == "Transcription failed"
  {
    TranscribeRoute(req, env, p);
    StageOutcomes(p, env);
    var o := Stage(p, env).outcome;
    if env.writeError.Some? {
      assert o == WriteError(env.writeError.value);
    } else if env.speech.SpeechFailed? {
      assert o == ProviderError(env.speech.message);
    } else if !Usable(env.speech.text) {
      assert o == Silent;
    }
  }

  /** A usable transcript is answered with the transcript body, after the
      file was written and the provider called. */
  lemma TranscriptAnswered(req: Request, env: Env, p: Payload)
    requires Reaches(req, env, p) && p.path == Some("/transcribe") && Validated(p)
    requires env.writeError.None? && env.speech.Transcribed? && Usable(env.speech.text)
    ensures Handle(req, env).reply == Ok(TranscriptBody(env.speech.text.value))
    ensures Wrote(Handle(req, env).trace) && SpeechCalled(Handle(req, env).trace)
  {
    StageOutcomes(p, env);
  }

  /** Every temporary path the handler assigns is followed by an attempt
      to unlink it. */
  lemma CleanupOnEveryExit(req: Request, env: Env, i: nat)
    requires i < |Handle(req, env).trace| && Handle(req, env).trace[i].TempCreated?
    ensures var t := Handle(req, env).trace;
      exists j :: i < j < |t| && t[j].Unlinked? && t[j].path == t[i].path
  {
    CleanupFollowsAssignment(Handle(req, env).trace, i);
  }

  /** Whether the unlink succeeds never changes the reply. */
  lemma UnlinkFailureSwallowed(req: Request, env: Env, ok: bool)
    ensures Handle(req, env.(unlinkOk := ok)).reply == Handle(req, env).reply
  {
    if Truthy(env.openAiKey) && req.path != "/ping" && BodyDoc(req.body).Success? && BodyDoc(req.body).value.Object? {
      var p := BodyDoc(req.body).value.payload;
      if p.path == Some("/transcribe") {
        TranscribeIgnoresUnlink(p, env, ok);
      }
    }
  }

  lemma TranscribeIgnoresUnlink(p: Payload, env: Env, ok: bool)
    ensures Transcribe(p, env.(unlinkOk := ok)).reply == Transcribe(p, env).reply
  {
    StageIgnoresUnlink(p, env, ok);
  }
}
